=== FILE: README.md ===
# actorSudoku: the cell actor's deductions, modelled in Dafny

actorSudoku solves a sudoku with 81 actors, one per cell. All of them listen on one broadcast bus. A message says that a cell IS a digit (`IsNumber`) or is NOT a digit (`IsNotNumber`).

Every actor keeps its own copy of the board's candidate sets (`InProgressSudoku`), starting at {1..9} in every cell. It applies each message it receives to that copy. When the message concerns a cell of its block, row or column, it runs the deduction rules:

- "only one option left";
- "last place for a digit in a unit";
- pointing pairs (a digit confined to one row or column of a block);
- naked tuples;
- X-Wing on rows.

Every conclusion goes out with `storeAndSend`: the actor applies the message to its own copy first, then broadcasts it. An actor stops listening once it announces its own cell's digit or receives that announcement. The puzzle itself is a 9x9 grid of optional digits, parsed from an 81-character line.

The model is organised as follows:

- **Data (`grid.dfy`, `messages.dfy`, `belief.dfy`).** Boards, points and messages are immutable datatypes. A candidate set is an ordered sequence without repeats, because Kotlin's `LinkedHashSet` iterates in insertion order and the deduction loops depend on that order. A message drops its `reason` text. `Update` is `InProgressSudoku.update`. `ApplyAll` replays a list of messages.
- **Handlers (`emission.dfy`).** Every handler is a pure function from a store to an `Out`: the resulting store and the messages sent. The central invariant is `Folds`: the resulting store is exactly the replay of the sent messages over the starting store, which is what `storeAndSend` guarantees. Handlers compose with `Then`.
- **Rules.** `last_in.dfy`, `aligned.dfy`, `tuples.dfy` and `xwing.dfy` model the rules in `CellActor.kt`, each as written, loop by loop.
  - Each rule's contract states which cells change, to what, and what is sent.
  - `solutions.dfy` adds the partner property: every rule is SOUND. A solution consistent with the store before the rule is still consistent after it. Each rule needs only the sudoku facts it relies on: every digit occurs in the unit, and no digit repeats in a row or column.
- **The actor (`cell_actor.dfy`).** This is the dispatch of `CellActor.start`. It covers one message (`Handle`) and the receive loop over an inbox (`Run`), with the stop on `chan.cancel()`. `replay.dfy` states the receive loop for any per-message step, message by message.
- **The puzzle (`sudoku.dfy`).** The `Sudoku` class and `parseSudoku`.

`CellActor.checkIfLastInRow` (CellActor.kt:94) passes the same ranges as `checkIfLastInCol`. So it scans the actor's column, not its row. The dispatch here keeps that behaviour, because the model follows the code. The model also defines the row scan that was evidently meant:

- `LastIn.CheckIfLastInRowIntended`, the corrected row scan;
- `LastIn.LastInRowMissesRowSingle` and `LastIn.RowOnlyStoreShowsMiss`, which exhibit a board where the written check misses a digit that only the actor's cell can take in its row, while the intended one finds it;
- `LastIn.CheckIfLastInRowIntendedSound`, which proves the intended version sound.

`parseSudoku` reads every character that is not a digit as an empty cell and reads `'0'` as the digit 0 (Sudoku.kt:32). The model does the same.

## Model

| member | source | states |
|---|---|---|
| Grids.MakeGrid | src/main/kotlin/Grid.kt:7-11 | `grid(rows, cols, init)` has `rows` rows of `cols` cells, and the cell at column x, row y holds init(x, y) |
| Grids.At | src/main/kotlin/Grid.kt:13-20 | Reading a grid at a point gives the same cell as reading it at that point's x and y: row y, column x |
| Belief.Initial | src/main/kotlin/InProgressSudoku.kt:5-7 | In a fresh store every one of the 81 cells has exactly the candidates 1..9, in ascending order |
| Belief.Cell | src/main/kotlin/InProgressSudoku.kt:9-10 | Reading a store by coordinates and reading it by point agree |
| Belief.Update | src/main/kotlin/InProgressSudoku.kt:12-24 | IsNumber leaves the cell holding exactly that digit. IsNotNumber removes exactly that digit and keeps the rest in order. Every other cell is unchanged |
| Belief.UpdateIdempotent | src/main/kotlin/InProgressSudoku.kt:12-24 | Applying the same message twice gives the same store as applying it once, so a re-delivered message does no harm |
| Belief.UpdateCommutes | src/main/kotlin/InProgressSudoku.kt:12-24 | Messages about different cells can be applied in either order with the same result |
| Belief.UpdateSizeNonIncreasing | src/main/kotlin/InProgressSudoku.kt:12-24 | No cell's number of candidates grows from a message, unless an IsNumber reaches a cell that had none left. An IsNumber can still bring in a digit the cell no longer allowed, in place of the ones it had |
| Belief.ApplyAllAppend | src/main/kotlin/CellActor.kt:289-293 | Replaying two batches of sent messages one after the other equals replaying their concatenation |
| Belief.ApplyAllCons | src/main/kotlin/CellActor.kt:48-50 | Replaying a received message and then a batch equals replaying the batch with the message in front |
| Units.BlockPoint | src/main/kotlin/CellActor.kt:36-39 | A cell's block corner is on the board, has both coordinates divisible by 3, and lies at most 2 left of and above the cell |
| Units.IsMe | src/main/kotlin/CellActor.kt:279 | A message is about me iff its point equals mine |
| Units.IsBlock | src/main/kotlin/CellActor.kt:280 | A message is from my block iff its point lies in my 3x3 block, which holds iff both points have the same block corner |
| Units.IsRow | src/main/kotlin/CellActor.kt:281 | A message is from my row iff it is about another cell with my y |
| Units.IsCol | src/main/kotlin/CellActor.kt:282 | A message is from my column iff it is about another cell with my x |
| Units.IsInReach | src/main/kotlin/CellActor.kt:283 | A message is in reach iff it shares my column, my row or my block |
| Units.UnitTestsPartition | src/main/kotlin/CellActor.kt:279-283 | Row and column never both hold. A message about me is in my block but not my row or column. Out of reach, none of the three tests holds |
| Scan.PointsInDistinct | src/main/kotlin/CellActor.kt:194 | The points of an x-range times a y-range, listed x-major, are all distinct |
| Scan.CountZero | src/main/kotlin/CellActor.kt:110-119 | `count` (`Scan.CountHolding`) over a list of cells is 0 iff no cell in it still allows the digit |
| Scan.CountOneIff | src/main/kotlin/CellActor.kt:110-119 | Over distinct cells, with q among them holding the digit, `count` is 1 iff q is the only cell that may hold it |
| Scan.CountTwoOther | src/main/kotlin/CellActor.kt:110-119 | If `count` is 2 and q holds the digit, some other cell of the list holds it too |
| Scan.BlockPoints | src/main/kotlin/CellActor.kt:89-92 | The block's ranges list exactly the nine cells of my block, each once |
| Scan.ColumnPoints | src/main/kotlin/CellActor.kt:94-95 | `point.x..point.x, 0..8` lists exactly the nine cells of my column, each once |
| Scan.RowPoints | src/main/kotlin/CellActor.kt:165 | `0..8, point.y..point.y` lists exactly the nine cells of my row, each once |
| Emission.Send | src/main/kotlin/CellActor.kt:289-293 | `storeAndSend` sends exactly the message, and the store afterwards is the replay of what was sent |
| Emission.ThenFolds | src/main/kotlin/CellActor.kt:289-293 | Two handlers in sequence still leave the store equal to the replay of everything they sent |
| Emission.DeduceNumber | src/main/kotlin/CellActor.kt:263-266 | Announces exactly `IsNumber(me, n)`. My cell becomes exactly {n} and no other cell changes |
| Emission.DeduceNotNumber | src/main/kotlin/CellActor.kt:268-270 | Sends exactly `IsNotNumber(me, n)`. My cell loses n and nothing else, and no other cell changes |
| Emission.ElimIfHeld | src/main/kotlin/CellActor.kt:158-160 | "If the cell still allows n, store and send its elimination": sends one message iff the cell held n, and the cell ends without n |
| Emission.ElimAllCells | src/main/kotlin/CellActor.kt:248-252 | Running that guard over a list of cells removes n from exactly the listed cells and leaves every other cell as it was |
| Emission.ElimAllSent | src/main/kotlin/CellActor.kt:248-252 | Every message of that loop eliminates n from a listed cell that still allowed n |
| Emission.EliminateEach | src/main/kotlin/CellActor.kt:206-212 | Eliminating a list of digits from one cell sends one IsNotNumber per digit. The cell keeps exactly its other candidates and no other cell changes |
| Emission.EliminationsShrink | src/main/kotlin/CellActor.kt:289-293 | Replaying only eliminations never adds a candidate to any cell |
| LastIn.CheckIfOnlyOneOption | src/main/kotlin/CellActor.kt:83-87 | When my cell has one candidate left, the actor announces exactly that digit for my cell and the store is unchanged. Otherwise it does nothing |
| LastIn.LastFrom | src/main/kotlin/CellActor.kt:99-107 | The digit loop from n on: silent with the store unchanged when no digit from n to 9 is one of my candidates with `count` 1 over the points; otherwise one `IsNumber` for me with the first such digit, and my cell becomes it |
| LastIn.CheckIfLastIn | src/main/kotlin/CellActor.kt:97-108 | If done, nothing. Otherwise it announces nothing iff no digit still allowed in my cell has `count` 1 over the ranges. If it announces, it is one `IsNumber` for me with the smallest such digit, and my cell becomes that digit |
| LastIn.LastHereIsOnlyHolder | src/main/kotlin/CellActor.kt:100-102 | For a unit containing me, "my cell allows k and `count` is 1" holds iff my cell is the only one of the unit that allows k |
| LastIn.CheckIfLastInBlock | src/main/kotlin/CellActor.kt:89-92 | Over my block: announces the smallest digit only my cell can hold there, if any, and otherwise leaves the store unchanged |
| LastIn.CheckIfLastInRow | src/main/kotlin/CellActor.kt:94 | As written, the same rule over my COLUMN |
| LastIn.CheckIfLastInCol | src/main/kotlin/CellActor.kt:95 | The same rule over my column |
| LastIn.CheckIfLastInRowIntended | src/main/kotlin/CellActor.kt:94 | The rule over my row, as evidently meant |
| LastIn.LastInRowMissesRowSingle | src/main/kotlin/CellActor.kt:94 | If my cell is {1, 2} and another cell of my column allows both, the written row check announces nothing, whatever my row holds |
| LastIn.LastInRowIntendedFindsRowSingle | src/main/kotlin/CellActor.kt:94 | If my cell is {1, 2} and no other cell of my row allows 1, the row scan announces 1 |
| LastIn.RowOnlyStoreShowsMiss | src/main/kotlin/CellActor.kt:94 | A concrete board: cell (0,0) is {1, 2} and the rest of row 0 lacks 1 and 2. The written check stays silent; the intended one announces 1 |
| LastIn.OnlyHolderSound | src/main/kotlin/CellActor.kt:97-108 | If a solution consistent with the unit puts k somewhere in it, and my cell is the only one allowing k, the solution puts k in my cell |
| LastIn.LastInUnitSound | src/main/kotlin/CellActor.kt:97-108 | A last-in-unit announcement keeps every solution consistent that agrees with the store and places each digit in the unit |
| LastIn.CheckIfLastInBlockSound | src/main/kotlin/CellActor.kt:89-92 | The block check keeps consistent every solution whose block holds every digit |
| LastIn.CheckIfLastInColSound | src/main/kotlin/CellActor.kt:94-95 | The column check, and the written row check that scans the column, keep consistent every solution whose column holds every digit |
| LastIn.CheckIfLastInRowIntendedSound | src/main/kotlin/CellActor.kt:94 | The intended row check keeps consistent every solution whose row holds every digit |
| Aligned.OtherRowsCount | src/main/kotlin/CellActor.kt:149-154 | `otherRowCount` is 0 iff no cell of my block outside my row allows the digit |
| Aligned.OtherColsCount | src/main/kotlin/CellActor.kt:132-137 | `otherColCount` is 0 iff no cell of my block outside my column allows the digit |
| Aligned.RowOutsidePoints | src/main/kotlin/CellActor.kt:155-156 | The loop visits exactly the cells of my row outside my block |
| Aligned.ColOutsidePoints | src/main/kotlin/CellActor.kt:138-139 | The loop visits exactly the cells of my column outside my block |
| Aligned.RowAlignedEffect | src/main/kotlin/CellActor.kt:155-161 | The row loop removes the digit from exactly the cells of my row outside my block. Each message is for such a cell that allowed it |
| Aligned.ColAlignedEffect | src/main/kotlin/CellActor.kt:138-144 | The column loop removes the digit from exactly the cells of my column outside my block. Each message is for such a cell that allowed it |
| Aligned.CheckRowAlignedInBlock | src/main/kotlin/CellActor.kt:148-163 | If the digit is confined to my row within my block, it is removed from the rest of my row. Otherwise nothing happens. My block is untouched |
| Aligned.CheckColAlignedInBlock | src/main/kotlin/CellActor.kt:131-146 | If the digit is confined to my column within my block, it is removed from the rest of my column. Otherwise nothing happens. My block is untouched |
| Aligned.HeldDependsOnBlock | src/main/kotlin/CellActor.kt:125-128 | Whether a digit is confined depends only on my block, so checks for earlier digits cannot change it for later ones |
| Aligned.AlignedEach | src/main/kotlin/CellActor.kt:125-128 | Over a list of digits, both checks only eliminate. Each message is justified by a confinement in the store before the loop, and every such elimination is made |
| Aligned.CheckAllInBlockAligned | src/main/kotlin/CellActor.kt:121-129 | If done, nothing. Otherwise, for every candidate of mine confined to my row (column) in my block, it is gone from the rest of that row (column); nothing else is sent and my block is untouched |
| Aligned.RowAlignedSound | src/main/kotlin/CellActor.kt:148-163 | The row check keeps consistent every solution that places the digit in my block and repeats no digit in a row |
| Aligned.ColAlignedSound | src/main/kotlin/CellActor.kt:131-146 | The column check keeps consistent every solution that places the digit in my block and repeats no digit in a column |
| Aligned.AlignedEachSound | src/main/kotlin/CellActor.kt:125-128 | The loop over digits keeps such solutions consistent |
| Aligned.CheckAllInBlockAlignedSound | src/main/kotlin/CellActor.kt:121-129 | `checkAllInBlockAligned` keeps consistent every solution whose block holds every digit and whose rows and columns repeat none |
| Tuples.SamePossible | src/main/kotlin/CellActor.kt:195-198 | `samePossible` holds exactly the cells of the range whose candidates are all in the tuple |
| Tuples.SamePossibleDistinct | src/main/kotlin/CellActor.kt:194-198 | Filtering distinct points keeps them distinct |
| Tuples.SamePossibleCount | src/main/kotlin/CellActor.kt:195-200 | `samePossible.size` is the number of distinct cells confined to the tuple |
| Tuples.InteriorEmitsNothing | src/main/kotlin/CellActor.kt:203-208 | A cell already confined to the tuple has nothing outside it to drop, so the interior branch sends nothing |
| Tuples.TupleFrom | src/main/kotlin/CellActor.kt:202-214 | The elimination loop leaves confined cells and cells outside the range unchanged. Every other cell of the range loses exactly the tuple's digits, and each message removes a tuple digit it held |
| Tuples.CheckTuple | src/main/kotlin/CellActor.kt:188-216 | If done, or the tuple is not naked, nothing. Otherwise every unconfined cell of the range loses exactly the tuple's digits, and nothing else changes. My own cell, the tuple itself, is never touched |
| Tuples.TupleDoneInUnit | src/main/kotlin/CellActor.kt:200-214 | When `samePossible` has as many cells as the tuple, the tuple is naked and the loop's effect is the one stated for CheckTuple |
| Tuples.CheckTupleInRow | src/main/kotlin/CellActor.kt:165 | The tuple check over my row touches only my row, removes only my candidates, and does nothing unless my cell is a naked tuple there |
| Tuples.CheckTupleInCol | src/main/kotlin/CellActor.kt:166 | The same over my column |
| Tuples.CheckTupleInBlock | src/main/kotlin/CellActor.kt:167 | The same over my block |
| Tuples.TupleDigitsTaken | src/main/kotlin/CellActor.kt:200-212 | If t distinct cells of a unit are confined to t digits, a solution that repeats no digit in the unit uses up those digits there, so no other cell of the unit takes one of them |
| Tuples.TupleSound | src/main/kotlin/CellActor.kt:188-216 | `checkTuple` keeps consistent every solution that agrees with the unit and repeats no digit in it |
| XWing.RowCountIsCount | src/main/kotlin/CellActor.kt:110-119 | The X-Wing's row count `count(0..8, y..y, n)` is the same `count` over the row's points that the other rules use |
| XWing.RowCountAgree | src/main/kotlin/CellActor.kt:110-119 | Two stores that agree on which cells may hold n give every row the same count of n |
| XWing.CountTwoLeavesOther | src/main/kotlin/CellActor.kt:224-227 | If a row's count for n is 2 and column c holds n, another column holds n as well |
| XWing.CountAtLeast | src/main/kotlin/CellActor.kt:110-119 | A row's count for n is at least the number of distinct columns known to hold n |
| XWing.ThirdHolder | src/main/kotlin/CellActor.kt:224 | Three distinct holders of n in a row make its count at least 3 |
| XWing.FindOther | src/main/kotlin/CellActor.kt:227 | The `find` returns the first column other than mine whose cell in my row allows n, and finds none iff there is none |
| XWing.FindOtherSucceeds | src/main/kotlin/CellActor.kt:224-229 | When my row's count is 2 and my cell allows n, the `find` succeeds, so the `!!` never throws |
| XWing.OnlyOtherColumn | src/main/kotlin/CellActor.kt:224-229 | With a count of 2, the `find` returns exactly the other holder |
| XWing.FirstPartnerLeast | src/main/kotlin/CellActor.kt:231-240 | The first partner row is the least row that passes the scan's three tests, and there is none iff no row passes |
| XWing.XWingTargets | src/main/kotlin/CellActor.kt:243-247 | The targets are exactly the cells of the two columns outside the two X-Wing rows |
| XWing.XWingElim | src/main/kotlin/CellActor.kt:243-253 | The elimination loop only eliminates, and the store is its replay |
| XWing.XWingElimEffect | src/main/kotlin/CellActor.kt:243-253 | The loop removes n from exactly the target cells. Each message removes n from a target that allowed it |
| XWing.FiredLast | src/main/kotlin/CellActor.kt:237-253 | After an X-Wing fires, no later row can pass the partner test, so the scan fires at most once per digit |
| XWing.XWingRows | src/main/kotlin/CellActor.kt:231-258 | The scan over the rows from a given one, for a fixed digit and partner column, only eliminates, and the store is the replay of what it sends |
| XWing.XWingRowsFirst | src/main/kotlin/CellActor.kt:231-258 | The row scan does exactly the first partner row's eliminations, or nothing when there is no partner |
| XWing.XWingNumber | src/main/kotlin/CellActor.kt:223-259 | For one digit: nothing unless my row's count is 2; only eliminations otherwise |
| XWing.XWingAgree | src/main/kotlin/CellActor.kt:223-240 | Two stores that agree on which cells may hold n have the same X-Wings on n, partner row included |
| XWing.XWingNumberQuiet | src/main/kotlin/CellActor.kt:223-259 | Without an X-Wing on n anchored at me, nothing happens |
| XWing.XWingNumberFires | src/main/kotlin/CellActor.kt:223-259 | With an X-Wing on n at the first possible partner row, exactly its targets lose n and all messages are those eliminations |
| XWing.XWingSound | src/main/kotlin/CellActor.kt:237-252 | If a solution agrees with an X-Wing, puts n somewhere in both rows and repeats no digit in a column, no target holds n in it |
| XWing.XWingElimSound | src/main/kotlin/CellActor.kt:243-253 | The X-Wing eliminations keep such a solution consistent |
| XWing.XWingNumberEffect | src/main/kotlin/CellActor.kt:223-259 | For one digit, my row is unchanged, and every message removes n from a cell outside my row that allowed it |
| XWing.ScanFindsFirst | src/main/kotlin/CellActor.kt:223-240 | The column the `find` returns and the first row passing the partner tests form an X-Wing whose partner row is the first |
| XWing.XWingNumberSent | src/main/kotlin/CellActor.kt:223-259 | For one digit, every message removes n from a target cell of the X-Wing the scan acts on: the X-Wing's two columns, off its two rows |
| XWing.XWingNumberComplete | src/main/kotlin/CellActor.kt:223-259 | For one digit, after the check no target cell of the X-Wing the scan acts on holds n |
| XWing.XWingNumberSound | src/main/kotlin/CellActor.kt:223-259 | For one digit, the check keeps consistent every solution whose rows each hold n and whose columns repeat no digit |
| XWing.XWingEach | src/main/kotlin/CellActor.kt:223 | The loop over my candidates only eliminates, and the store is its replay. XWingEachTargets and XWingEachComplete state which cells it touches |
| XWing.XWingEachKeepsRow | src/main/kotlin/CellActor.kt:223-259 | My row, my own cell included, is unchanged by the loop, so the candidates being iterated stay fixed |
| XWing.XWingEachSent | src/main/kotlin/CellActor.kt:223-259 | Every message removes one of the listed digits from a cell outside my row that allowed it when the loop began |
| XWing.XWingEachTargets | src/main/kotlin/CellActor.kt:223-259 | Every message removes a listed digit n from a cell in one of the two columns of an X-Wing on n through me, on a row other than its two rows. The X-Wing is read in the store the loop began with |
| XWing.XWingEachComplete | src/main/kotlin/CellActor.kt:223-259 | After the loop, for every listed digit n, no target cell of the X-Wing on n the scan acts on (the one with the first partner row, read in the store the loop began with) holds n |
| XWing.XWingEachSound | src/main/kotlin/CellActor.kt:223-259 | The loop keeps consistent every solution whose rows hold each listed digit and whose columns repeat none |
| XWing.CheckXWingRow | src/main/kotlin/CellActor.kt:218-261 | If done, nothing. Otherwise only eliminations, and the store is their replay |
| XWing.CheckXWingRowEffect | src/main/kotlin/CellActor.kt:218-261 | My row is unchanged. Every message removes one of my candidates n from a cell that allowed it, in one of the two columns of an X-Wing on n through me and off its two rows |
| XWing.CheckXWingRowComplete | src/main/kotlin/CellActor.kt:218-261 | While my cell is undecided, afterwards the X-Wing the scan acts on for each of my candidates (the one with the first partner row) has its digit removed from all of its targets |
| XWing.CheckXWingRowSound | src/main/kotlin/CellActor.kt:218-261 | `checkXWingRow` keeps consistent every solution whose rows hold each of my candidates and whose columns repeat no digit |
| Actor.QuietReacts | src/main/kotlin/CellActor.kt:50-77 | Doing nothing keeps the actor invariant and announces nothing |
| Actor.EliminationsReact | src/main/kotlin/CellActor.kt:289-293 | A handler that only eliminates keeps the actor invariant: the store is the replay, it announces nothing and my cell only shrinks |
| Actor.ThenAnnounced | src/main/kotlin/CellActor.kt:50-77 | A sequence of two handlers announces a digit iff one of them does |
| Actor.ThenReacts | src/main/kotlin/CellActor.kt:50-77 | Two reactions in sequence are a reaction, provided nothing happens after an announcement |
| Actor.LastInReacts | src/main/kotlin/CellActor.kt:97-108 | A last-in-unit check keeps the actor invariant: it announces only for my cell and leaves my cell decided, and once done it does nothing |
| Actor.BlockChecks | src/main/kotlin/CellActor.kt:63-67 | The three block rules in order keep the actor invariant and do nothing once I am done. The group announces iff the last-in-block rule finds a digit only my cell can take, and then does only that. Otherwise the alignment rule runs on the store as it was, then the naked-tuple rule on its result |
| Actor.RowChecks | src/main/kotlin/CellActor.kt:68-72 | The three row rules in order keep the actor invariant and do nothing once I am done. The group announces iff the last-in rule (over my column, as written) finds a digit, and then does only that. Otherwise the row naked-tuple rule runs on the store as it was, then the X-Wing rule on its result |
| Actor.ColChecks | src/main/kotlin/CellActor.kt:73-76 | The two column rules in order keep the actor invariant and do nothing once I am done. The group announces iff the last-in-column rule finds a digit, and then does only that. Otherwise it is the column naked-tuple rule on the store as it was |
| Actor.UnitChecks | src/main/kotlin/CellActor.kt:63-76 | For another cell's message, keeps the actor invariant. Out of reach it does nothing. From my block alone it is the block group; from my row or column outside my block it is the row or column group; from my block and row (or column) it is the block group, then the row (or column) group on its result. A block group that announces is all that happens |
| Actor.Peer | src/main/kotlin/CellActor.kt:57-77 | For another cell's message: keeps the actor invariant and does nothing if the message is out of reach. After a digit announced in reach, my cell no longer allows that digit: the reaction is that elimination of my cell, then the unit groups on its result. An elimination from another cell triggers the unit groups alone |
| Actor.Handle | src/main/kotlin/CellActor.kt:50-77 | One received message, applied first. The reaction keeps the actor invariant, and the actor stops only once decided. A digit for my own cell stops it silently. An elimination on my own cell is answered by the only-one-option rule, and stops it iff the cell is then decided. A message about another cell is answered by the peer reaction, and stops it iff that reaction announces a digit. Out of reach, it stays silent. Without a stop it only eliminates |
| Actor.Run | src/main/kotlin/CellActor.kt:45-81 | Over an inbox, the log is each message handled, in the order received, followed by the replies to it. The final store is the replay of that log, what is sent is the replies in order, and as multisets the log holds exactly the messages handled plus exactly those sent. The actor handles every message unless it stops, stops only when decided, and announces digits only for its own cell |
| Actor.RunFollows | src/main/kotlin/CellActor.kt:45-81 | The replies of a run follow `Handle` message by message from s: the first answers the first message, the rest follow from the store it leaves unless it stopped the actor |
| Actor.RunInOrder | src/main/kotlin/CellActor.kt:45-81 | Reply i of a run is what `Handle` sends for message i on the store it finds: s with every earlier message and its replies replayed in order. Message i stops the actor iff it is the last handled and the run stopped |
| Actor.Receive | src/main/kotlin/CellActor.kt:48-77 | The receive loop's step is `Handle` on every message on the board |
| Replay.FollowsInOrder | src/main/kotlin/CellActor.kt:45-81 | For any step that applies the message and replays what it sends, replies that follow it message by message are its answers to each message on the replay of everything before |
| Belief.ReplayShift | src/main/kotlin/CellActor.kt:48-50 | Replaying the first i messages with their replies is replaying the first message and its replies, then the next i - 1 with theirs |
| Actor.RunOwnNumber | src/main/kotlin/CellActor.kt:52-54 | A digit announced for my cell as the first message stops me after one message. I send nothing and my cell holds just that digit |
| Actor.RunOutOfReach | src/main/kotlin/CellActor.kt:57-77 | An inbox with nothing in reach is applied in full. I send nothing and never stop |
| Sudokus.NewSudoku | src/main/kotlin/Sudoku.kt:7-12 | Construction succeeds iff the grid has 9 rows of 9 cells, and keeps the grid as given. Otherwise it fails with the class's requirement error |
| Sudokus.Get | src/main/kotlin/Sudoku.kt:14 | `get(x, y)` reads the grid at column x, row y, through the grid accessor |
| Sudokus.DigitOf | src/main/kotlin/Sudoku.kt:32 | A character reads as a number iff it is '0'..'9', and the number is the digit's value 0..9 |
| Sudokus.Chunks9 | src/main/kotlin/Sudoku.kt:29 | `chunked(9)` yields ceil(n/9) consecutive pieces of nine characters, the last possibly shorter |
| Sudokus.RowDigits | src/main/kotlin/Sudoku.kt:32 | Each character of a row is read on its own, in order |
| Sudokus.ParseSudoku | src/main/kotlin/Sudoku.kt:28-37 | Failure always carries the parse error naming the line |
| Sudokus.ParseSucceedsIff | src/main/kotlin/Sudoku.kt:28-37 | Parsing succeeds exactly on lines of 81 characters |
| Sudokus.ParseGet | src/main/kotlin/Sudoku.kt:28-37 | A parsed puzzle is 9x9, and its cell (x, y) is the reading of character 9y + x |
| Sudokus.ParseValues | src/main/kotlin/Sudoku.kt:32 | Every parsed cell is empty or a digit 0..9, and '0' reads as the digit 0, not as an empty cell |
| Sudokus.VisitsExact | src/main/kotlin/Sudoku.kt:16-25 | From any position on, `forEach` visits exactly the filled cells, each with its digit, in strictly increasing order |
| Sudokus.ForEachExact | src/main/kotlin/Sudoku.kt:16-25 | `forEach` (`Sudokus.ForEach`, the loop `Sudokus.Visits` from cell 0) calls its action once per filled cell, with that cell's digit. Columns are outer and rows inner, and no cell is visited twice |

## Left out

- Coroutines, the broadcast bus and `chan.cancel()` are not modelled as such. An actor's inbox is a parameter of `Actor.Run`: which messages reach it, and in which order, is up to the bus. Cancelling is the `stop` flag of a step.
- The other 80 actors and `cellActors` (CellActor.kt:306-312) are left out. The model is one actor's behaviour over any inbox.
- The `reason` strings and `log` calls are left out. They do not affect the store or what is sent.
- `powerset` and the commented-out `checkSubsetTupleIn` (CellActor.kt:173-186, 297-304) are left out: no code path calls them.
- `View.kt`, `main`, `log` and `top95` in Sudoku.kt (lines 40-83), and `build.gradle.kts`, are left out. They are I/O and wiring.
- CellActor.kt:61 is left out. It re-tests `isMe` inside the branch for other cells, so it can never fire.
- Off-board points are excluded by `requires`: message points in `Actor.Handle` and coordinates in `Sudokus.Get`. There the source would throw an index exception; every message the actors themselves send is on the board.
- Sudokus.DigitOf: reads only the ASCII digits. Kotlin's `toIntOrNull` also accepts other Unicode decimal digits.
- Sudokus.ParseSudoku: counts characters as Unicode scalar values. Kotlin's `chunked` counts UTF-16 units, so the two differ for lines with characters outside the Basic Multilingual Plane.
- Kotlin's 32-bit `Int` is modelled as an unbounded integer. Every value involved is a coordinate or a digit, far below the bound.

=== FILE: aligned.dfy ===
/** Pointing eliminations of a cell actor (CellActor.kt
    `checkAllInBlockAligned`, `checkRowAlignedInBlock`,
    `checkColAlignedInBlock`): a candidate of mine that no other row (column)
    of my block may hold is confined to my row (column) inside the block, so
    it is ruled out of that row (column) outside the block. */
module Aligned {
  import opened Grids
  import opened Ordered
  import opened Messages
  import opened Belief
  import opened Scan
  import opened Units
  import opened Emission
  import opened Solutions

  /** Some cell of my block outside my row may hold n. */
  ghost predicate HeldInOtherRows(s: Store, me: Point, n: int)
    requires ValidPoint(me)
  {
    exists p | ValidPoint(p) && InBlock(me, p) && p.y != me.y :: n in CellAt(s, p)
  }

  /** Some cell of my block outside my column may hold n. */
  ghost predicate HeldInOtherCols(s: Store, me: Point, n: int)
    requires ValidPoint(me)
  {
    exists p | ValidPoint(p) && InBlock(me, p) && p.x != me.x :: n in CellAt(s, p)
  }

  /** The cells of my row outside my block. */
  predicate RowOutside(me: Point, p: Point)
    requires ValidPoint(me)
  {
    ValidPoint(p) && p.y == me.y && !InBlock(me, p)
  }

  /** The cells of my column outside my block. */
  predicate ColOutside(me: Point, p: Point)
    requires ValidPoint(me)
  {
    ValidPoint(p) && p.x == me.x && !InBlock(me, p)
  }

  /** The cells of my block outside my row, as the row check lists them:
      columns bx..bx+2 by rows by..by+2 without mine. */
  function OtherRowsPoints(me: Point): (ps: seq<Point>)
    requires ValidPoint(me)
    ensures OnBoard(ps)
    ensures forall p :: p in ps <==> ValidPoint(p) && InBlock(me, p) && p.y != me.y
  {
    var b := BlockPoint(me);
    PointsInOnBoard(Range(b.x, b.x + 2), Without(Range(b.y, b.y + 2), me.y));
    PointsIn(Range(b.x, b.x + 2), Without(Range(b.y, b.y + 2), me.y))
  }

  /** The cells of my block outside my column: columns bx..bx+2 without
      mine by rows by..by+2. */
  function OtherColsPoints(me: Point): (ps: seq<Point>)
    requires ValidPoint(me)
    ensures OnBoard(ps)
    ensures forall p :: p in ps <==> ValidPoint(p) && InBlock(me, p) && p.x != me.x
  {
    var b := BlockPoint(me);
    PointsInOnBoard(Without(Range(b.x, b.x + 2), me.x), Range(b.y, b.y + 2));
    PointsIn(Without(Range(b.x, b.x + 2), me.x), Range(b.y, b.y + 2))
  }

  /** A zero count over the other rows of my block says exactly that none
      of them may hold n. */
  lemma OtherRowsCount(s: Store, me: Point, n: int)
    requires ValidPoint(me)
    ensures CountHolding(s, OtherRowsPoints(me), n) == 0 <==> !HeldInOtherRows(s, me, n)
  {
    CountZero(s, OtherRowsPoints(me), n);
  }

  /** A zero count over the other columns of my block says exactly that
      none of them may hold n. */
  lemma OtherColsCount(s: Store, me: Point, n: int)
    requires ValidPoint(me)
    ensures CountHolding(s, OtherColsPoints(me), n) == 0 <==> !HeldInOtherCols(s, me, n)
  {
    CountZero(s, OtherColsPoints(me), n);
  }

  /** The cells the column loop of `checkRowAlignedInBlock` visits, in
      order: my row from column `from` on, skipping my block. */
  function RowOutsidePoints(me: Point, from: int): (ps: seq<Point>)
    requires ValidPoint(me) && 0 <= from <= Size
    ensures forall p | p in ps :: ValidPoint(p)
    ensures forall p :: p in ps <==> RowOutside(me, p) && from <= p.x
    decreases Size - from
  {
    if from == Size then []
    else
      var p := Point(from, me.y);
      (if InBlock(me, p) then [] else [p]) + RowOutsidePoints(me, from + 1)
  }

  /** The cells the row loop of `checkColAlignedInBlock` visits, in
      order: my column from row `from` on, skipping my block. */
  function ColOutsidePoints(me: Point, from: int): (ps: seq<Point>)
    requires ValidPoint(me) && 0 <= from <= Size
    ensures forall p | p in ps :: ValidPoint(p)
    ensures forall p :: p in ps <==> ColOutside(me, p) && from <= p.y
    decreases Size - from
  {
    if from == Size then []
    else
      var p := Point(me.x, from);
      (if InBlock(me, p) then [] else [p]) + ColOutsidePoints(me, from + 1)
  }

  /** The loop of `checkRowAlignedInBlock` rules n out of my row outside
      my block, only where still held, and touches nothing else. */
  lemma RowAlignedEffect(me: Point, s: Store, n: int)
    requires ValidPoint(me)
    ensures forall p | ValidPoint(p) :: (CellAt(ElimAll(s, RowOutsidePoints(me, 0), n).store, p) ==
      if RowOutside(me, p) then Remove(CellAt(s, p), n) else CellAt(s, p))
    ensures forall m | m in ElimAll(s, RowOutsidePoints(me, 0), n).sent ::
      m.IsNotNumber? && m.number == n && RowOutside(me, m.point) && n in CellAt(s, m.point)
  {
    ElimAllCells(s, RowOutsidePoints(me, 0), n);
    ElimAllSent(s, RowOutsidePoints(me, 0), n);
  }

  /** The loop of `checkColAlignedInBlock` rules n out of my column outside
      my block, only where still held, and touches nothing else. */
  lemma ColAlignedEffect(me: Point, s: Store, n: int)
    requires ValidPoint(me)
    ensures forall p | ValidPoint(p) :: (CellAt(ElimAll(s, ColOutsidePoints(me, 0), n).store, p) ==
      if ColOutside(me, p) then Remove(CellAt(s, p), n) else CellAt(s, p))
    ensures forall m | m in ElimAll(s, ColOutsidePoints(me, 0), n).sent ::
      m.IsNotNumber? && m.number == n && ColOutside(me, m.point) && n in CellAt(s, m.point)
  {
    ElimAllCells(s, ColOutsidePoints(me, 0), n);
    ElimAllSent(s, ColOutsidePoints(me, 0), n);
  }

  /** `checkRowAlignedInBlock(n)`: fires exactly when no other row of my
      block may hold n, and then rules n out of my row outside the block. */
  function CheckRowAlignedInBlock(me: Point, s: Store, n: int): (r: Out)
    requires ValidPoint(me)
    ensures Folds(s, r)
    ensures HeldInOtherRows(s, me, n) ==> r == Quiet(s)
    ensures !HeldInOtherRows(s, me, n) ==> forall p | ValidPoint(p) :: (CellAt(r.store, p) ==
      if RowOutside(me, p) then Remove(CellAt(s, p), n) else CellAt(s, p))
    ensures forall m | m in r.sent ::
      m.IsNotNumber? && m.number == n && RowOutside(me, m.point) && n in CellAt(s, m.point)
  {
    OtherRowsCount(s, me, n);
    RowAlignedEffect(me, s, n);
    if CountHolding(s, OtherRowsPoints(me), n) == 0 then ElimAll(s, RowOutsidePoints(me, 0), n) else Quiet(s)
  }

  /** `checkColAlignedInBlock(n)`: fires exactly when no other column of my
      block may hold n, and then rules n out of my column outside the
      block. */
  function CheckColAlignedInBlock(me: Point, s: Store, n: int): (r: Out)
    requires ValidPoint(me)
    ensures Folds(s, r)
    ensures HeldInOtherCols(s, me, n) ==> r == Quiet(s)
    ensures !HeldInOtherCols(s, me, n) ==> forall p | ValidPoint(p) :: (CellAt(r.store, p) ==
      if ColOutside(me, p) then Remove(CellAt(s, p), n) else CellAt(s, p))
    ensures forall m | m in r.sent ::
      m.IsNotNumber? && m.number == n && ColOutside(me, m.point) && n in CellAt(s, m.point)
  {
    OtherColsCount(s, me, n);
    ColAlignedEffect(me, s, n);
    if CountHolding(s, OtherColsPoints(me), n) == 0 then ElimAll(s, ColOutsidePoints(me, 0), n) else Quiet(s)
  }

  /** Whether another row or column of my block may hold a digit depends on
      my block's cells alone. */
  lemma HeldDependsOnBlock(s: Store, t: Store, me: Point)
    requires ValidPoint(me)
    requires forall p | ValidPoint(p) && InBlock(me, p) :: CellAt(t, p) == CellAt(s, p)
    ensures forall n :: HeldInOtherRows(t, me, n) <==> HeldInOtherRows(s, me, n)
    ensures forall n :: HeldInOtherCols(t, me, n) <==> HeldInOtherCols(s, me, n)
  {
  }

  /** The loop of `checkAllInBlockAligned` over the digits ns: for each, the
      row check and then the column check. */
  function AlignedEach(me: Point, s: Store, ns: seq<int>): (r: Out)
    requires ValidPoint(me)
    ensures Folds(s, r)
    ensures OnlyEliminations(r.sent)
    ensures Shrinks(s, r.store)
    ensures forall p | ValidPoint(p) && InBlock(me, p) :: CellAt(r.store, p) == CellAt(s, p)
    ensures forall m | m in r.sent ::
      && m.number in ns && m.number in CellAt(s, m.point)
      && ((RowOutside(me, m.point) && !HeldInOtherRows(s, me, m.number))
          || (ColOutside(me, m.point) && !HeldInOtherCols(s, me, m.number)))
    ensures forall n, p | n in ns && RowOutside(me, p) && !HeldInOtherRows(s, me, n) ::
      n !in CellAt(r.store, p)
    ensures forall n, p | n in ns && ColOutside(me, p) && !HeldInOtherCols(s, me, n) ::
      n !in CellAt(r.store, p)
    decreases |ns|
  {
    if ns == [] then Quiet(s)
    else
      var n := ns[0];
      var a := CheckRowAlignedInBlock(me, s, n);
      var b := CheckColAlignedInBlock(me, a.store, n);
      var c := AlignedEach(me, b.store, ns[1..]);
      AlignedHead(me, s, n, a, b);
      AlignedStep(me, s, ns, Then(a, b), c);
      Then(Then(a, b), c)
  }

  /** One digit's row check followed by its column check: both only remove
      n from cells outside my block that the block's layout rules out, and
      together they remove it from all of those. */
  lemma AlignedHead(me: Point, s: Store, n: int, a: Out, b: Out)
    requires ValidPoint(me)
    requires a == CheckRowAlignedInBlock(me, s, n)
    requires b == CheckColAlignedInBlock(me, a.store, n)
    ensures Folds(s, Then(a, b)) && OnlyEliminations(Then(a, b).sent) && Shrinks(s, b.store)
    ensures forall p | ValidPoint(p) && InBlock(me, p) :: CellAt(b.store, p) == CellAt(s, p)
    ensures forall m | m in Then(a, b).sent ::
      && m.number == n && m.number in CellAt(s, m.point)
      && ((RowOutside(me, m.point) && !HeldInOtherRows(s, me, n))
          || (ColOutside(me, m.point) && !HeldInOtherCols(s, me, n)))
    ensures forall p | RowOutside(me, p) && !HeldInOtherRows(s, me, n) :: n !in CellAt(b.store, p)
    ensures forall p | ColOutside(me, p) && !HeldInOtherCols(s, me, n) :: n !in CellAt(b.store, p)
  {
    ThenFolds(s, a, b);
    // Neither check touches my block, so the block-only conditions agree
    // on s and a.store.
    assert forall p | ValidPoint(p) && InBlock(me, p) :: CellAt(a.store, p) == CellAt(s, p);
    HeldDependsOnBlock(s, a.store, me);
    EliminationsShrink(s, a);
    EliminationsShrink(a.store, b);
    ShrinksTrans(s, a.store, b.store);
    forall m | m in b.sent
      ensures m.number in CellAt(s, m.point)
    {
      assert SubsetOf(CellAt(a.store, m.point), CellAt(s, m.point));
    }
    forall p | RowOutside(me, p) && !HeldInOtherRows(s, me, n)
      ensures n !in CellAt(b.store, p)
    {
      assert n !in CellAt(a.store, p);
    }
  }

  /** The inductive step of AlignedEach: the first digit's checks ab, then
      the remaining digits' loop c. */
  lemma AlignedStep(me: Point, s: Store, ns: seq<int>, ab: Out, c: Out)
    requires ValidPoint(me) && ns != []
    requires Folds(s, ab) && OnlyEliminations(ab.sent) && Shrinks(s, ab.store)
    requires forall p | ValidPoint(p) && InBlock(me, p) :: CellAt(ab.store, p) == CellAt(s, p)
    requires forall m | m in ab.sent ::
      && m.number == ns[0] && m.number in CellAt(s, m.point)
      && ((RowOutside(me, m.point) && !HeldInOtherRows(s, me, ns[0]))
          || (ColOutside(me, m.point) && !HeldInOtherCols(s, me, ns[0])))
    requires forall p | RowOutside(me, p) && !HeldInOtherRows(s, me, ns[0]) :: ns[0] !in CellAt(ab.store, p)
    requires forall p | ColOutside(me, p) && !HeldInOtherCols(s, me, ns[0]) :: ns[0] !in CellAt(ab.store, p)
    requires Folds(ab.store, c) && OnlyEliminations(c.sent) && Shrinks(ab.store, c.store)
    requires forall p | ValidPoint(p) && InBlock(me, p) :: CellAt(c.store, p) == CellAt(ab.store, p)
    requires forall m | m in c.sent ::
      && m.number in ns[1..] && m.number in CellAt(ab.store, m.point)
      && ((RowOutside(me, m.point) && !HeldInOtherRows(ab.store, me, m.number))
          || (ColOutside(me, m.point) && !HeldInOtherCols(ab.store, me, m.number)))
    requires forall n, p | n in ns[1..] && RowOutside(me, p) && !HeldInOtherRows(ab.store, me, n) ::
      n !in CellAt(c.store, p)
    requires forall n, p | n in ns[1..] && ColOutside(me, p) && !HeldInOtherCols(ab.store, me, n) ::
      n !in CellAt(c.store, p)
    ensures Folds(s, Then(ab, c))
    ensures OnlyEliminations(Then(ab, c).sent)
    ensures Shrinks(s, c.store)
    ensures forall p | ValidPoint(p) && InBlock(me, p) :: CellAt(c.store, p) == CellAt(s, p)
    ensures forall m | m in Then(ab, c).sent ::
      && m.number in ns && m.number in CellAt(s, m.point)
      && ((RowOutside(me, m.point) && !HeldInOtherRows(s, me, m.number))
          || (ColOutside(me, m.point) && !HeldInOtherCols(s, me, m.number)))
    ensures forall n, p | n in ns && RowOutside(me, p) && !HeldInOtherRows(s, me, n) ::
      n !in CellAt(c.store, p)
    ensures forall n, p | n in ns && ColOutside(me, p) && !HeldInOtherCols(s, me, n) ::
      n !in CellAt(c.store, p)
  {
    ThenFolds(s, ab, c);
    assert forall k | k in ns :: k == ns[0] || k in ns[1..];
    assert forall k | k in ns[1..] :: k in ns;
    HeldDependsOnBlock(s, ab.store, me);
    ShrinksTrans(s, ab.store, c.store);
    forall m | m in c.sent
      ensures m.number in CellAt(s, m.point)
    {
      assert SubsetOf(CellAt(ab.store, m.point), CellAt(s, m.point));
    }
    forall k, p | k in ns && RowOutside(me, p) && !HeldInOtherRows(s, me, k)
      ensures k !in CellAt(c.store, p)
    {
      if k == ns[0] {
        assert SubsetOf(CellAt(c.store, p), CellAt(ab.store, p));
      }
    }
    forall k, p | k in ns && ColOutside(me, p) && !HeldInOtherCols(s, me, k)
      ensures k !in CellAt(c.store, p)
    {
      if k == ns[0] {
        assert SubsetOf(CellAt(c.store, p), CellAt(ab.store, p));
      }
    }
  }

  /** `checkAllInBlockAligned`: unless done, run the row and column checks
      for each of my candidates in order. My own cell lies in my block and
      is never touched, so the candidate set being iterated stays fixed. */
  function CheckAllInBlockAligned(me: Point, s: Store): (r: Out)
    requires ValidPoint(me)
    ensures Done(me, s) ==> r == Quiet(s)
    ensures Folds(s, r)
    ensures OnlyEliminations(r.sent)
    ensures Shrinks(s, r.store)
    ensures forall p | ValidPoint(p) && InBlock(me, p) :: CellAt(r.store, p) == CellAt(s, p)
    ensures forall m | m in r.sent ::
      && m.number in CellAt(s, me) && m.number in CellAt(s, m.point)
      && ((RowOutside(me, m.point) && !HeldInOtherRows(s, me, m.number))
          || (ColOutside(me, m.point) && !HeldInOtherCols(s, me, m.number)))
    ensures !Done(me, s) ==>
      forall n, p | n in CellAt(s, me) && RowOutside(me, p) && !HeldInOtherRows(s, me, n) ::
        n !in CellAt(r.store, p)
    ensures !Done(me, s) ==>
      forall n, p | n in CellAt(s, me) && ColOutside(me, p) && !HeldInOtherCols(s, me, n) ::
        n !in CellAt(r.store, p)
  {
    if Done(me, s) then Quiet(s) else AlignedEach(me, s, CellAt(s, me))
  }

  /** Pointing along my row is sound: when no other row of my block may
      hold n, a solution that agrees with the store, puts n somewhere in my
      block and repeats no digit in a row has n in my row inside the block,
      so no cell of my row outside the block holds n in it. */
  lemma RowAlignedSound(me: Point, s: Store, n: int, sol: Solution)
    requires ValidPoint(me) && !HeldInOtherRows(s, me, n)
    requires ConsistentAll(s, sol) && RowsInjective(sol) && Has(sol, BlockPoints(me), n)
    ensures ConsistentAll(CheckRowAlignedInBlock(me, s, n).store, sol)
  {
    var b :| b in BlockPoints(me) && sol(b) == n;
    assert n in CellAt(s, b);
    assert b.y == me.y;
    forall p | ValidPoint(p) && RowOutside(me, p)
      ensures sol(p) != n
    {
      assert p != b;
    }
  }

  /** Pointing along my column is sound, as for rows. */
  lemma ColAlignedSound(me: Point, s: Store, n: int, sol: Solution)
    requires ValidPoint(me) && !HeldInOtherCols(s, me, n)
    requires ConsistentAll(s, sol) && ColumnsInjective(sol) && Has(sol, BlockPoints(me), n)
    ensures ConsistentAll(CheckColAlignedInBlock(me, s, n).store, sol)
  {
    var b :| b in BlockPoints(me) && sol(b) == n;
    assert n in CellAt(s, b);
    assert b.x == me.x;
    forall p | ValidPoint(p) && ColOutside(me, p)
      ensures sol(p) != n
    {
      assert p != b;
    }
  }

  /** The loop over the digits ns keeps every solution that agrees with the
      store, has each of them in my block and repeats no digit in a row or
      column in agreement with the store. */
  lemma {:induction false} AlignedEachSound(me: Point, s: Store, ns: seq<int>, sol: Solution)
    requires ValidPoint(me) && ConsistentAll(s, sol) && RowsInjective(sol) && ColumnsInjective(sol)
    requires forall n | n in ns :: Has(sol, BlockPoints(me), n)
    ensures ConsistentAll(AlignedEach(me, s, ns).store, sol)
    decreases |ns|
  {
    if ns != [] {
      var n := ns[0];
      var a := CheckRowAlignedInBlock(me, s, n);
      var b := CheckColAlignedInBlock(me, a.store, n);
      assert n in ns;
      if !HeldInOtherRows(s, me, n) {
        RowAlignedSound(me, s, n, sol);
      }
      HeldDependsOnBlock(s, a.store, me);
      if !HeldInOtherCols(a.store, me, n) {
        ColAlignedSound(me, a.store, n, sol);
      }
      assert forall k | k in ns[1..] :: k in ns;
      AlignedEachSound(me, b.store, ns[1..], sol);
    }
  }

  /** checkAllInBlockAligned never rules out the digit of a solution that
      agrees with the store, has each of my candidates in my block and
      repeats no digit in a row or column. */
  lemma CheckAllInBlockAlignedSound(me: Point, s: Store, sol: Solution)
    requires ValidPoint(me) && ConsistentAll(s, sol) && RowsInjective(sol) && ColumnsInjective(sol)
    requires forall n | n in CellAt(s, me) :: Has(sol, BlockPoints(me), n)
    ensures ConsistentAll(CheckAllInBlockAligned(me, s).store, sol)
  {
    if !Done(me, s) {
      AlignedEachSound(me, s, CellAt(s, me), sol);
    }
  }
}

=== FILE: belief.dfy ===
/** The local belief store (InProgressSudoku.kt): a 9x9 grid of candidate
    sets, changed only by applying deduction messages. */
module Belief {
  import opened Grids
  import opened Ordered
  import opened Messages

  /** The fresh candidate set (1..9).toMutableSet(), in ascending order. */
  const Digits: OrderedSet := [1, 2, 3, 4, 5, 6, 7, 8, 9]

  /** A 9x9 grid of candidate sets. */
  type Store = g: Grid<OrderedSet> | HasShape(g, Size, Size)
    witness MakeGrid(Size, Size, (x: int, y: int) => Digits)

  /** `get(point)`: the candidates of cell p. */
  function CellAt(s: Store, p: Point): OrderedSet
    requires ValidPoint(p)
  {
    At(s, p)
  }

  /** `get(x, y)`: the same set as `get(Point(x, y))`. */
  function Cell(s: Store, x: int, y: int): (c: OrderedSet)
    requires 0 <= x < Size && 0 <= y < Size
    ensures c == CellAt(s, Point(x, y))
  {
    AtXY(s, x, y)
  }

  /** A fresh store: every one of the 81 cells may hold any digit 1..9. */
  function Initial(): (s: Store)
    ensures forall p | ValidPoint(p) :: CellAt(s, p) == Digits
    ensures forall p, k | ValidPoint(p) :: k in CellAt(s, p) <==> 1 <= k <= 9
  {
    MakeGrid(Size, Size, (x, y) => Digits)
  }

  /** `update(msg)`: IsNumber replaces the target cell by {n}; IsNotNumber
      removes n from it; no other cell changes. */
  function Update(s: Store, m: Msg): (r: Store)
    requires ValidPoint(m.point)
    ensures m.IsNumber? ==> CellAt(r, m.point) == [m.number]
    ensures m.IsNotNumber? ==> forall k :: k in CellAt(r, m.point) <==> k in CellAt(s, m.point) && k != m.number
    ensures m.IsNotNumber? ==> CellAt(r, m.point) == Remove(CellAt(s, m.point), m.number)
    ensures m.IsNotNumber? ==> SubsetOf(CellAt(r, m.point), CellAt(s, m.point))
    ensures forall p | ValidPoint(p) && p != m.point :: CellAt(r, p) == CellAt(s, p)
  {
    var p := m.point;
    var c: OrderedSet := match m
      case IsNumber(_, n) => [n]
      case IsNotNumber(_, n) => Remove(CellAt(s, p), n);
    var row: seq<OrderedSet> := s[p.y];
    s[p.y := row[p.x := c]]
  }

  /** Replays a sequence of messages in order. */
  function ApplyAll(s: Store, ms: seq<Msg>): Store
    requires AllValid(ms)
    decreases |ms|
  {
    if ms == [] then s else ApplyAll(Update(s, ms[0]), ms[1..])
  }

  /** Two stores that agree on every cell are the same store. */
  lemma StoreExtensional(a: Store, b: Store)
    requires forall p | ValidPoint(p) :: CellAt(a, p) == CellAt(b, p)
    ensures a == b
  {
    forall y | 0 <= y < Size
      ensures a[y] == b[y]
    {
      forall x | 0 <= x < Size
        ensures a[y][x] == b[y][x]
      {
        assert CellAt(a, Point(x, y)) == CellAt(b, Point(x, y));
      }
    }
  }

  /** Applying the same message twice is the same as applying it once. */
  lemma UpdateIdempotent(s: Store, m: Msg)
    requires ValidPoint(m.point)
    ensures Update(Update(s, m), m) == Update(s, m)
  {
    StoreExtensional(Update(Update(s, m), m), Update(s, m));
  }

  /** Messages about different cells commute. */
  lemma UpdateCommutes(s: Store, m1: Msg, m2: Msg)
    requires ValidPoint(m1.point) && ValidPoint(m2.point)
    requires m1.point != m2.point
    ensures Update(Update(s, m1), m2) == Update(Update(s, m2), m1)
  {
    StoreExtensional(Update(Update(s, m1), m2), Update(Update(s, m2), m1));
  }

  /** Candidate-set sizes never grow, as long as an IsNumber does not land
      on a cell that is already empty (a contradiction). */
  lemma UpdateSizeNonIncreasing(s: Store, m: Msg, p: Point)
    requires ValidPoint(m.point) && ValidPoint(p)
    requires m.IsNumber? ==> CellAt(s, m.point) != []
    ensures |CellAt(Update(s, m), p)| <= |CellAt(s, p)|
  {
  }

  /** Replaying a concatenation is replaying its two parts in turn. */
  lemma {:induction false} ApplyAllAppend(s: Store, a: seq<Msg>, b: seq<Msg>)
    requires AllValid(a) && AllValid(b)
    ensures AllValid(a + b)
    ensures ApplyAll(s, a + b) == ApplyAll(ApplyAll(s, a), b)
    decreases |a|
  {
    if a == [] {
      assert a + b == b;
    } else {
      assert (a + b)[0] == a[0];
      assert (a + b)[1..] == a[1..] + b;
      ApplyAllAppend(Update(s, a[0]), a[1..], b);
    }
  }

  /** Replaying m and then ms is replaying ms on the store m updated. */
  lemma ApplyAllCons(s: Store, m: Msg, ms: seq<Msg>)
    requires ValidPoint(m.point) && AllValid(ms)
    ensures AllValid([m] + ms)
    ensures ApplyAll(s, [m] + ms) == ApplyAll(Update(s, m), ms)
  {
    assert ([m] + ms)[1..] == ms;
  }

  /** Every reply batch is on the board. */
  predicate AllRepliesValid(rs: seq<seq<Msg>>) {
    forall j | 0 <= j < |rs| :: AllValid(rs[j])
  }

  /** Interleaving messages on the board with replies on the board stays on
      the board. */
  lemma {:induction false} InterleaveValid(xs: seq<Msg>, rs: seq<seq<Msg>>)
    requires |xs| == |rs| && AllValid(xs) && AllRepliesValid(rs)
    ensures AllValid(Interleave(xs, rs))
    decreases |xs|
  {
    if xs != [] {
      assert xs[0] in xs && AllValid(rs[0]);
      assert forall x | x in xs[1..] :: x in xs;
      InterleaveValid(xs[1..], rs[1..]);
    }
  }

  /** The store the message at position i of an inbox finds: s with the
      first i messages and their replies replayed, in order. */
  function Replayed(s: Store, inbox: seq<Msg>, replies: seq<seq<Msg>>, i: int): Store
    requires AllValid(inbox) && AllRepliesValid(replies) && 0 <= i <= |replies| <= |inbox|
  {
    assert forall x | x in inbox[..i] :: x in inbox;
    InterleaveValid(inbox[..i], replies[..i]);
    ApplyAll(s, Interleave(inbox[..i], replies[..i]))
  }

  /** Nothing is replayed before the first message, and a first reply
      batch on the board joins the rest. */
  lemma ReplayStart(s: Store, inbox: seq<Msg>, replies: seq<seq<Msg>>)
    requires AllValid(inbox) && 0 < |replies| <= |inbox| && AllValid(replies[0])
    requires AllRepliesValid(replies[1..])
    ensures AllRepliesValid(replies)
    ensures Replayed(s, inbox, replies, 0) == s
  {
    assert forall j | 0 < j < |replies| :: replies[j] == replies[1..][j - 1];
    assert inbox[..0] == [] && replies[..0] == [];
  }

  /** The replay up to position i is the first message and its replies
      replayed, then the replay of the rest up to position i - 1. */
  lemma ReplayShift(s: Store, t: Store, inbox: seq<Msg>, replies: seq<seq<Msg>>, i: int)
    requires AllValid(inbox) && AllRepliesValid(replies) && 0 < i <= |replies| <= |inbox|
    requires t == ApplyAll(Update(s, inbox[0]), replies[0])
    ensures AllValid(inbox[1..]) && AllRepliesValid(replies[1..])
    ensures Replayed(s, inbox, replies, i) == Replayed(t, inbox[1..], replies[1..], i - 1)
  {
    var m := inbox[0];
    assert forall x | x in inbox[1..] :: x in inbox;
    var xs := inbox[1..][..i - 1];
    var rs := replies[1..][..i - 1];
    assert forall x | x in xs :: x in inbox;
    assert AllValid(replies[0]);
    InterleaveValid(xs, rs);
    var tail := Interleave(xs, rs);
    assert [replies[0]] + rs == replies[..i];
    InterleaveStep(inbox, i - 1, replies[0], rs);
    assert m in inbox;
    ApplyAllCons(s, m, replies[0]);
    ApplyAllAppend(s, [m] + replies[0], tail);
  }
}

=== FILE: cell_actor.dfy ===
/** One cell actor (CellActor.kt `CellActor.start`): it replays every
    message it receives into its own store and reacts to those about its
    own cell, its block, its row and its column with the deduction rules of
    the other modules. Its reactions are messages it sends, each applied to
    its own store first. */
module Actor {
  import opened Grids
  import opened Ordered
  import opened Messages
  import opened Belief
  import opened Units
  import opened Scan
  import opened Emission
  import opened LastIn
  import opened Aligned
  import opened Tuples
  import opened XWing
  import opened Replay

  /** Some message of ms announces a digit. */
  predicate Announced(ms: seq<Msg>) {
    exists i | 0 <= i < |ms| :: ms[i].IsNumber?
  }

  /** Every digit announced in ms is one for my own cell. */
  predicate OwnAnnouncements(me: Point, ms: seq<Msg>) {
    forall x | x in ms :: x.IsNotNumber? || x.point == me
  }

  /** What every reaction of mine keeps: the store is the replay of what I
      sent, I only announce digits for my own cell, my own cell never gains
      a candidate, and once I have announced a digit my cell is decided. */
  ghost predicate Reacts(me: Point, s: Store, o: Out)
    requires ValidPoint(me)
  {
    && Folds(s, o)
    && OwnAnnouncements(me, o.sent)
    && SubsetOf(CellAt(o.store, me), CellAt(s, me))
    && (Announced(o.sent) ==> Done(me, o.store))
  }

  /** Doing nothing is a reaction. */
  lemma QuietReacts(me: Point, s: Store)
    requires ValidPoint(me)
    ensures Reacts(me, s, Quiet(s)) && !Announced(Quiet(s).sent)
  {
  }

  /** Eliminations alone are a reaction that announces nothing. */
  lemma EliminationsReact(me: Point, s: Store, o: Out)
    requires ValidPoint(me) && Folds(s, o) && OnlyEliminations(o.sent)
    ensures Reacts(me, s, o) && !Announced(o.sent)
  {
    EliminationsShrink(s, o);
    assert SubsetOf(CellAt(o.store, me), CellAt(s, me));
  }

  /** A sequence of two handlers announces when either part does. */
  lemma ThenAnnounced(a: Out, b: Out)
    ensures Announced(Then(a, b).sent) <==> Announced(a.sent) || Announced(b.sent)
  {
    var ab := Then(a, b).sent;
    if Announced(ab) {
      var i :| 0 <= i < |ab| && ab[i].IsNumber?;
      if i < |a.sent| {
        assert a.sent[i] == ab[i];
      } else {
        assert b.sent[i - |a.sent|] == ab[i];
      }
    }
    if Announced(a.sent) {
      var j :| 0 <= j < |a.sent| && a.sent[j].IsNumber?;
      assert ab[j] == a.sent[j];
    }
    if Announced(b.sent) {
      var j :| 0 <= j < |b.sent| && b.sent[j].IsNumber?;
      assert ab[|a.sent| + j] == b.sent[j];
    }
  }

  /** Two reactions in a row are one, provided nothing follows an
      announcement; the pair announces when either part does. */
  lemma ThenReacts(me: Point, s: Store, a: Out, b: Out)
    requires ValidPoint(me) && Reacts(me, s, a) && Reacts(me, a.store, b)
    requires Announced(a.sent) ==> b == Quiet(a.store)
    ensures Reacts(me, s, Then(a, b))
    ensures Announced(Then(a, b).sent) <==> Announced(a.sent) || Announced(b.sent)
  {
    ThenFolds(s, a, b);
    ThenSent(a, b);
    ThenAnnounced(a, b);
  }

  /** A last-in-unit check is a reaction, and does nothing once I am done. */
  lemma LastInReacts(me: Point, s: Store, ps: seq<Point>, o: Out)
    requires ValidPoint(me) && OnBoard(ps) && Folds(s, o) && LastInUnit(me, s, ps, o)
    ensures Reacts(me, s, o)
    ensures Done(me, s) ==> o == Quiet(s)
  {
    if o.sent != [] {
      var k := o.sent[0].number;
      assert k in CellAt(s, me);
      assert CellAt(o.store, me) == [k];
    }
  }

  /** The last-in-unit rule over ps finds a digit for my undecided cell. */
  ghost predicate LastInFires(me: Point, s: Store, ps: seq<Point>)
    requires ValidPoint(me) && OnBoard(ps)
  {
    !Done(me, s) && exists k | 1 <= k <= 9 :: OnlyHolder(s, me, ps, k)
  }

  /** A message from my block: the last-in-block rule, then the alignment
      rule, then the naked-tuple rule for my block. The group announces
      exactly when the last-in rule finds a digit, and then that is all it
      does, since my cell is decided; otherwise the other two rules run in
      turn on the store as it was. */
  function BlockChecks(me: Point, s: Store): (r: Out)
    requires ValidPoint(me)
    ensures Reacts(me, s, r)
    ensures Done(me, s) ==> r == Quiet(s)
    ensures Announced(r.sent) <==> LastInFires(me, s, BlockPoints(me))
    ensures Announced(r.sent) ==> r == CheckIfLastInBlock(me, s)
    ensures !Announced(r.sent) ==>
      r == Then(CheckAllInBlockAligned(me, s), CheckTupleInBlock(me, CheckAllInBlockAligned(me, s).store))
  {
    var a := CheckIfLastInBlock(me, s);
    LastInReacts(me, s, BlockPoints(me), a);
    var b := CheckAllInBlockAligned(me, a.store);
    EliminationsReact(me, a.store, b);
    ThenReacts(me, s, a, b);
    var ab := Then(a, b);
    var c := CheckTupleInBlock(me, ab.store);
    EliminationsReact(me, ab.store, c);
    ThenReacts(me, s, ab, c);
    if a.sent != [] then
      assert Announced(a.sent);
      ThenQuiet(a);
      ThenQuiet(ab);
      Then(ab, c)
    else
      QuietThen(s, b);
      Then(ab, c)
  }

  /** A message from my row: the last-in rule (scanning my column, as the
      source does), then the naked-tuple rule for my row, then the X-Wing
      rule. The group announces exactly when the last-in rule finds a digit,
      and then that is all it does; otherwise the other two rules run in
      turn on the store as it was. */
  function RowChecks(me: Point, s: Store): (r: Out)
    requires ValidPoint(me)
    ensures Reacts(me, s, r)
    ensures Done(me, s) ==> r == Quiet(s)
    ensures Announced(r.sent) <==> LastInFires(me, s, ColumnPoints(me))
    ensures Announced(r.sent) ==> r == CheckIfLastInRow(me, s)
    ensures !Announced(r.sent) ==>
      r == Then(CheckTupleInRow(me, s), CheckXWingRow(me, CheckTupleInRow(me, s).store))
  {
    var a := CheckIfLastInRow(me, s);
    LastInReacts(me, s, ColumnPoints(me), a);
    var b := CheckTupleInRow(me, a.store);
    EliminationsReact(me, a.store, b);
    ThenReacts(me, s, a, b);
    var ab := Then(a, b);
    var c := CheckXWingRow(me, ab.store);
    EliminationsReact(me, ab.store, c);
    ThenReacts(me, s, ab, c);
    if a.sent != [] then
      assert Announced(a.sent);
      ThenQuiet(a);
      ThenQuiet(ab);
      Then(ab, c)
    else
      QuietThen(s, b);
      Then(ab, c)
  }

  /** A message from my column: the last-in-column rule, then the
      naked-tuple rule for my column. The group announces exactly when the
      last-in rule finds a digit, and then that is all it does; otherwise
      the tuple rule runs on the store as it was. */
  function ColChecks(me: Point, s: Store): (r: Out)
    requires ValidPoint(me)
    ensures Reacts(me, s, r)
    ensures Done(me, s) ==> r == Quiet(s)
    ensures Announced(r.sent) <==> LastInFires(me, s, ColumnPoints(me))
    ensures Announced(r.sent) ==> r == CheckIfLastInCol(me, s)
    ensures !Announced(r.sent) ==> r == CheckTupleInCol(me, s)
  {
    var a := CheckIfLastInCol(me, s);
    LastInReacts(me, s, ColumnPoints(me), a);
    var b := CheckTupleInCol(me, a.store);
    EliminationsReact(me, a.store, b);
    ThenReacts(me, s, a, b);
    if a.sent != [] then
      assert Announced(a.sent);
      ThenQuiet(a);
      Then(a, b)
    else
      QuietThen(s, b);
      Then(a, b)
  }

  /** Without an announcement every message is an elimination. */
  lemma SilentEliminates(ms: seq<Msg>)
    requires !Announced(ms)
    ensures OnlyEliminations(ms)
  {
    forall x | x in ms
      ensures x.IsNotNumber?
    {
      var i :| 0 <= i < |ms| && ms[i] == x;
    }
  }

  /** The block, row and column checks a message about another cell calls
      for, by the sender's position relative to mine: the block group when
      the sender shares my block, then the row group or the column group
      when it shares my row or my column (never both). A block group that
      announces ends the turn, as my cell is then decided. */
  function UnitChecks(me: Point, s: Store, m: Msg): (r: Out)
    requires ValidPoint(me) && ValidPoint(m.point) && m.point != me
    ensures Reacts(me, s, r)
    ensures !IsInReach(me, m) ==> r == Quiet(s)
    ensures IsBlock(me, m) && Announced(BlockChecks(me, s).sent) ==> r == BlockChecks(me, s)
    ensures IsBlock(me, m) && !IsRow(me, m) && !IsCol(me, m) ==> r == BlockChecks(me, s)
    ensures IsBlock(me, m) && IsRow(me, m) ==> r == Then(BlockChecks(me, s), RowChecks(me, BlockChecks(me, s).store))
    ensures IsBlock(me, m) && IsCol(me, m) ==> r == Then(BlockChecks(me, s), ColChecks(me, BlockChecks(me, s).store))
    ensures !IsBlock(me, m) && IsRow(me, m) ==> r == RowChecks(me, s)
    ensures !IsBlock(me, m) && IsCol(me, m) ==> r == ColChecks(me, s)
  {
    UnitTestsPartition(me, m);
    if IsBlock(me, m) then
      var b := BlockChecks(me, s);
      if IsRow(me, m) then
        var c := RowChecks(me, b.store);
        ThenReacts(me, s, b, c);
        ThenQuiet(b);
        Then(b, c)
      else if IsCol(me, m) then
        var c := ColChecks(me, b.store);
        ThenReacts(me, s, b, c);
        ThenQuiet(b);
        Then(b, c)
      else b
    else if IsRow(me, m) then RowChecks(me, s)
    else if IsCol(me, m) then ColChecks(me, s)
    else
      QuietReacts(me, s);
      Quiet(s)
  }

  /** The reaction to a message about another cell, on the store that
      already holds it: rule the announced digit out of my cell when the
      sender is in reach, then the unit checks. The `isMe` test the source
      repeats here cannot hold, as this is the branch for other cells. */
  function Peer(me: Point, s: Store, m: Msg): (r: Out)
    requires ValidPoint(me) && ValidPoint(m.point) && m.point != me
    ensures Reacts(me, s, r)
    ensures !IsInReach(me, m) ==> r == Quiet(s)
    ensures m.IsNumber? && IsInReach(me, m) ==> m.number !in CellAt(r.store, me)
    ensures m.IsNumber? && IsInReach(me, m) ==>
      r == Then(DeduceNotNumber(me, s, m.number), UnitChecks(me, DeduceNotNumber(me, s, m.number).store, m))
    ensures m.IsNotNumber? ==> r == UnitChecks(me, s, m)
  {
    var a := if m.IsNumber? && IsInReach(me, m) then DeduceNotNumber(me, s, m.number) else Quiet(s);
    EliminationsReact(me, s, a);
    var b := UnitChecks(me, a.store, m);
    ThenReacts(me, s, a, b);
    QuietThen(s, b);
    if !IsInReach(me, m) then Then(a, b)
    else
      assert SubsetOf(CellAt(b.store, me), CellAt(a.store, me));
      Then(a, b)
  }

  /** One turn of the receive loop: apply the message to my store, then
      react. A digit announced for my own cell ends the actor, as does
      announcing one myself (`setNumber` runs on both paths, and
      `deduceNumber` is the only sender of a digit). */
  function Handle(me: Point, s: Store, m: Msg): (r: Step)
    requires ValidPoint(me) && ValidPoint(m.point)
    ensures Reacts(me, Update(s, m), r.out)
    ensures r.stop ==> Done(me, r.out.store)
    ensures !r.stop ==> OnlyEliminations(r.out.sent)
    ensures m.IsNumber? && m.point == me ==> r == Step(Quiet(Update(s, m)), true)
    ensures m.IsNotNumber? && m.point == me ==> (r.stop <==> Done(me, Update(s, m)))
    ensures !IsInReach(me, m) ==> r == Step(Quiet(Update(s, m)), false)
    ensures m.IsNumber? && m.point != me && IsInReach(me, m) ==> m.number !in CellAt(r.out.store, me)
    ensures m.IsNotNumber? && m.point == me ==> r.out == CheckIfOnlyOneOption(me, Update(s, m))
    ensures m.point != me ==> r.out == Peer(me, Update(s, m), m)
    ensures m.point != me ==> (r.stop <==> Announced(r.out.sent))
  {
    var s1 := Update(s, m);
    if IsMe(me, m) then
      if m.IsNumber? then
        QuietReacts(me, s1);
        Step(Quiet(s1), true)
      else
        var o := CheckIfOnlyOneOption(me, s1);
        if Done(me, s1) then
          assert o.sent[0].IsNumber?;
          Step(o, true)
        else
          QuietReacts(me, s1);
          Step(o, false)
    else
      var o := Peer(me, s1, m);
      if Announced(o.sent) then Step(o, true)
      else
        SilentEliminates(o.sent);
        Step(o, false)
  }

  /** An actor's life over its inbox: its store, everything it applied to
      it in order, what it sent, how many messages it handled, whether it
      stopped listening, and the replies to each message handled, in the
      order received. */
  datatype Life = Life(store: Store, log: seq<Msg>, sent: seq<Msg>, handled: nat, stopped: bool,
                       replies: seq<seq<Msg>>)

  /** Handle as the step of my receive loop. Every message on the bus is on
      the board, so the other branch is never taken. */
  function Receive(me: Point): (f: (Store, Msg) -> Step)
    requires ValidPoint(me)
    ensures forall s: Store, m: Msg | ValidPoint(m.point) :: f(s, m) == Handle(me, s, m)
  {
    (s: Store, m: Msg) => if ValidPoint(m.point) then Handle(me, s, m) else Step(Quiet(s), false)
  }

  /** My receive loop's step replays what it sends. */
  lemma ReceiveReplays(me: Point)
    requires ValidPoint(me)
    ensures Replays(Receive(me))
  {
    forall s: Store, m: Msg | ValidPoint(m.point)
      ensures Folds(Update(s, m), Receive(me)(s, m).out)
    {
    }
  }

  /** The receive loop from store s: handle each message in turn until one
      of them stops the actor. An actor starts from the Initial store;
      which messages reach it, and in which order, is up to the bus and is
      the parameter inbox here. The log is each message
      handled followed by the replies to it, in order, so the store is the
      replay of exactly that sequence. */
  function Run(me: Point, s: Store, inbox: seq<Msg>): (r: Life)
    requires ValidPoint(me) && AllValid(inbox)
    ensures AllValid(r.log) && r.store == ApplyAll(s, r.log)
    ensures r.handled <= |inbox| && (r.stopped || r.handled == |inbox|)
    ensures r.stopped ==> Done(me, r.store)
    ensures OwnAnnouncements(me, r.sent)
    ensures |r.replies| == r.handled && r.sent == Flatten(r.replies)
    ensures r.log == Interleave(inbox[..r.handled], r.replies)
    ensures multiset(r.log) == multiset(inbox[..r.handled]) + multiset(r.sent)
    decreases |inbox|
  {
    if inbox == [] then Life(s, [], [], 0, false, [])
    else
      var m := inbox[0];
      var st := Handle(me, s, m);
      assert m in inbox;
      var head := [m] + st.out.sent;
      ApplyAllCons(s, m, st.out.sent);
      if st.stop then
        InterleaveLast(inbox, st.out.sent);
        Life(st.out.store, head, st.out.sent, 1, true, [st.out.sent])
      else
        var rest := Run(me, st.out.store, inbox[1..]);
        ApplyAllAppend(s, head, rest.log);
        InterleaveCons(inbox, rest.handled, st.out.sent, rest.log, rest.sent, rest.replies);
        Life(rest.store, head + rest.log, st.out.sent + rest.sent, rest.handled + 1, rest.stopped,
             [st.out.sent] + rest.replies)
  }

  /** The replies of a run follow Handle message by message from s: the
      first is Handle's answer to the first message, and the rest follow
      from the store it leaves, unless it stopped me. */
  lemma {:induction false} RunFollows(me: Point, s: Store, inbox: seq<Msg>)
    requires ValidPoint(me) && AllValid(inbox)
    ensures Follows(Receive(me), s, inbox, Run(me, s, inbox).replies, Run(me, s, inbox).stopped)
    decreases |inbox|
  {
    if inbox != [] {
      var m := inbox[0];
      assert m in inbox;
      var st := Handle(me, s, m);
      assert Receive(me)(s, m) == st;
      if st.stop {
        FollowsLast(Receive(me), s, inbox);
      } else {
        var rest := Run(me, st.out.store, inbox[1..]);
        assert forall x | x in inbox[1..] :: x in inbox;
        RunFollows(me, st.out.store, inbox[1..]);
        FollowsCons(Receive(me), s, inbox, rest.replies, rest.stopped);
      }
    }
  }

  /** Each reply of a run is what Handle sends for that message on the
      store it finds, the replay of every earlier message and its replies;
      a message stops the actor exactly when it is the last one handled
      and the run stopped. */
  lemma RunInOrder(me: Point, s: Store, inbox: seq<Msg>)
    requires ValidPoint(me) && AllValid(inbox)
    ensures |Run(me, s, inbox).replies| <= |inbox|
    ensures InOrder(Receive(me), s, inbox, Run(me, s, inbox).replies, Run(me, s, inbox).stopped)
  {
    var r := Run(me, s, inbox);
    RunFollows(me, s, inbox);
    ReceiveReplays(me);
    FollowsInOrder(Receive(me), s, inbox, r.replies, r.stopped);
  }

  /** A digit announced for my own cell first thing stops me at once: I
      send nothing and my cell holds just that digit. */
  lemma RunOwnNumber(me: Point, s: Store, inbox: seq<Msg>, k: int)
    requires ValidPoint(me) && AllValid(inbox) && inbox != [] && inbox[0] == IsNumber(me, k)
    ensures var r := Run(me, s, inbox);
      r.stopped && r.handled == 1 && r.sent == [] && CellAt(r.store, me) == [k]
  {
  }

  /** Messages from outside my block, row and column leave me untouched:
      I apply them and send nothing. */
  lemma {:induction false} RunOutOfReach(me: Point, s: Store, inbox: seq<Msg>)
    requires ValidPoint(me) && AllValid(inbox)
    requires forall m | m in inbox :: !IsInReach(me, m)
    ensures var r := Run(me, s, inbox);
      !r.stopped && r.handled == |inbox| && r.sent == [] && r.store == ApplyAll(s, inbox)
    decreases |inbox|
  {
    if inbox != [] {
      var m := inbox[0];
      assert m in inbox;
      assert forall x | x in inbox[1..] :: x in inbox;
      RunOutOfReach(me, Update(s, m), inbox[1..]);
    }
  }
}

=== FILE: emission.dfy ===
/** Emitting deductions (CellActor.kt `storeAndSend`, `deduceNumber`,
    `deduceNotNumber`): a message is applied to the actor's own store first
    and then appended to what the actor has sent. A handler is modelled as
    a function from the store to an `Out`: the store after the handler and
    the messages it sent, in order. */
module Emission {
  import opened Grids
  import opened Ordered
  import opened Messages
  import opened Belief

  /** The store after a handler, and the messages it sent, in order. */
  datatype Out = Out(store: Store, sent: seq<Msg>)

  /** The store of o is s with every sent message replayed in order. */
  ghost predicate Folds(s: Store, o: Out) {
    AllValid(o.sent) && o.store == ApplyAll(s, o.sent)
  }

  /** Nothing sent, nothing changed. */
  function Quiet(s: Store): Out {
    Out(s, [])
  }

  /** Run a, then b on a's store. */
  function Then(a: Out, b: Out): Out {
    Out(b.store, a.sent + b.sent)
  }

  /** Sequencing keeps the store equal to the replay of everything sent. */
  lemma ThenFolds(s: Store, a: Out, b: Out)
    requires Folds(s, a) && Folds(a.store, b)
    ensures Folds(s, Then(a, b))
  {
    ApplyAllAppend(s, a.sent, b.sent);
  }

  /** Doing nothing after a changes nothing. */
  lemma ThenQuiet(a: Out)
    ensures Then(a, Quiet(a.store)) == a
  {
    assert a.sent + [] == a.sent;
  }

  /** Doing nothing before b changes nothing. */
  lemma QuietThen(s: Store, b: Out)
    ensures Then(Quiet(s), b) == b
  {
    assert [] + b.sent == b.sent;
  }

  /** What a sequence sends is what its parts send. */
  lemma ThenSent(a: Out, b: Out)
    ensures forall m :: m in Then(a, b).sent <==> m in a.sent || m in b.sent
  {
  }

  /** `storeAndSend(msg)`: update the own store, then send. */
  function Send(s: Store, m: Msg): (o: Out)
    requires ValidPoint(m.point)
    ensures o.sent == [m] && Folds(s, o)
  {
    Out(Update(s, m), [m])
  }

  /** `done`: my own cell is down to a single candidate. */
  predicate Done(me: Point, s: Store)
    requires ValidPoint(me)
  {
    |CellAt(s, me)| == 1
  }

  /** `deduceNumber(n)`: announce that my cell is n; my store now says so. */
  function DeduceNumber(me: Point, s: Store, n: int): (o: Out)
    requires ValidPoint(me)
    ensures o.sent == [IsNumber(me, n)] && Folds(s, o)
    ensures CellAt(o.store, me) == [n]
    ensures forall p | ValidPoint(p) && p != me :: CellAt(o.store, p) == CellAt(s, p)
  {
    Send(s, IsNumber(me, n))
  }

  /** `deduceNotNumber(n)`: announce that my cell is not n. */
  function DeduceNotNumber(me: Point, s: Store, n: int): (o: Out)
    requires ValidPoint(me)
    ensures o.sent == [IsNotNumber(me, n)] && Folds(s, o)
    ensures forall k :: k in CellAt(o.store, me) <==> k in CellAt(s, me) && k != n
    ensures forall p | ValidPoint(p) && p != me :: CellAt(o.store, p) == CellAt(s, p)
  {
    Send(s, IsNotNumber(me, n))
  }

  /** Rule n out of cell p, if p still holds it. */
  function ElimIfHeld(s: Store, p: Point, n: int): (o: Out)
    requires ValidPoint(p)
    ensures Folds(s, o)
    ensures o.sent == if n in CellAt(s, p) then [IsNotNumber(p, n)] else []
    ensures CellAt(o.store, p) == Remove(CellAt(s, p), n)
    ensures forall q | ValidPoint(q) && q != p :: CellAt(o.store, q) == CellAt(s, q)
  {
    if n in CellAt(s, p) then Send(s, IsNotNumber(p, n)) else Quiet(s)
  }

  /** Rule n out of every listed cell that still holds it, in order. */
  function ElimAll(s: Store, ps: seq<Point>, n: int): (r: Out)
    requires forall p | p in ps :: ValidPoint(p)
    ensures Folds(s, r) && OnlyEliminations(r.sent)
    decreases |ps|
  {
    if ps == [] then Quiet(s)
    else
      var a := ElimIfHeld(s, ps[0], n);
      var b := ElimAll(a.store, ps[1..], n);
      ThenFolds(s, a, b);
      ThenSent(a, b);
      Then(a, b)
  }

  /** ElimAll takes n out of exactly the listed cells. */
  lemma {:induction false} ElimAllCells(s: Store, ps: seq<Point>, n: int)
    requires forall p | p in ps :: ValidPoint(p)
    ensures forall p | ValidPoint(p) :: (CellAt(ElimAll(s, ps, n).store, p) ==
      if p in ps then Remove(CellAt(s, p), n) else CellAt(s, p))
    decreases |ps|
  {
    if ps != [] {
      var a := ElimIfHeld(s, ps[0], n);
      ElimAllCells(a.store, ps[1..], n);
      forall p | ValidPoint(p)
        ensures CellAt(ElimAll(s, ps, n).store, p) ==
          if p in ps then Remove(CellAt(s, p), n) else CellAt(s, p)
      {
        assert p in ps <==> p == ps[0] || p in ps[1..];
        if p == ps[0] {
          var c := Remove(CellAt(s, p), n);
          assert n !in c;
        }
      }
    }
  }

  /** ElimAll sends one elimination of n per listed cell that still held
      it. */
  lemma {:induction false} ElimAllSent(s: Store, ps: seq<Point>, n: int)
    requires forall p | p in ps :: ValidPoint(p)
    ensures forall m | m in ElimAll(s, ps, n).sent ::
      m.number == n && m.point in ps && n in CellAt(s, m.point)
    decreases |ps|
  {
    if ps != [] {
      var a := ElimIfHeld(s, ps[0], n);
      var b := ElimAll(a.store, ps[1..], n);
      ElimAllSent(a.store, ps[1..], n);
      ThenSent(a, b);
      forall m | m in b.sent
        ensures m.point in ps && n in CellAt(s, m.point)
      {
        var q := m.point;
        assert q in ps[1..];
        assert n in CellAt(a.store, q);
      }
    }
  }

  /** One elimination of a digit from cell p per element of ks, in order. */
  function Eliminations(p: Point, ks: seq<int>): (ms: seq<Msg>)
    ensures |ms| == |ks|
    ensures forall m | m in ms :: m.IsNotNumber? && m.point == p && m.number in ks
    decreases |ks|
  {
    if ks == [] then []
    else
      assert forall k | k in ks[1..] :: k in ks;
      [IsNotNumber(p, ks[0])] + Eliminations(p, ks[1..])
  }

  /** Rule every k of ks out of cell p, in order, whether or not p still
      holds it. */
  function EliminateEach(s: Store, p: Point, ks: seq<int>): (o: Out)
    requires ValidPoint(p)
    ensures Folds(s, o)
    ensures o.sent == Eliminations(p, ks)
    ensures CellAt(o.store, p) == Select(CellAt(s, p), ks, false)
    ensures forall q | ValidPoint(q) && q != p :: CellAt(o.store, q) == CellAt(s, q)
    decreases |ks|
  {
    if ks == [] then
      SelectKeepsAll(CellAt(s, p), ks);
      Quiet(s)
    else
      var a := Send(s, IsNotNumber(p, ks[0]));
      var b := EliminateEach(a.store, p, ks[1..]);
      ThenFolds(s, a, b);
      SelectRemove(CellAt(s, p), ks[0], ks[1..]);
      assert [ks[0]] + ks[1..] == ks;
      Then(a, b)
  }

  /** Every message sent is an elimination. */
  predicate OnlyEliminations(ms: seq<Msg>) {
    forall m | m in ms :: m.IsNotNumber?
  }

  /** No cell of t holds a candidate its counterpart in s does not. */
  ghost predicate Shrinks(s: Store, t: Store) {
    forall p | ValidPoint(p) :: SubsetOf(CellAt(t, p), CellAt(s, p))
  }

  /** Shrinking is transitive. */
  lemma ShrinksTrans(s: Store, t: Store, u: Store)
    requires Shrinks(s, t) && Shrinks(t, u)
    ensures Shrinks(s, u)
  {
    forall p | ValidPoint(p)
      ensures SubsetOf(CellAt(u, p), CellAt(s, p))
    {
      assert SubsetOf(CellAt(t, p), CellAt(s, p));
      assert SubsetOf(CellAt(u, p), CellAt(t, p));
    }
  }

  /** Replaying eliminations only ever shrinks candidate sets. */
  lemma {:induction false} EliminationsShrink(s: Store, o: Out)
    requires Folds(s, o) && OnlyEliminations(o.sent)
    ensures Shrinks(s, o.store)
    decreases |o.sent|
  {
    if o.sent != [] {
      var m := o.sent[0];
      var s1 := Update(s, m);
      var rest := Out(o.store, o.sent[1..]);
      assert forall x | x in o.sent[1..] :: x in o.sent;
      EliminationsShrink(s1, rest);
      forall p | ValidPoint(p)
        ensures SubsetOf(CellAt(o.store, p), CellAt(s, p))
      {
        assert SubsetOf(CellAt(s1, p), CellAt(s, p));
      }
    }
  }

  /** s and t agree on which cells may hold k. */
  ghost predicate SameHolders(s: Store, t: Store, k: int) {
    forall p | ValidPoint(p) :: k in CellAt(s, p) <==> k in CellAt(t, p)
  }

  /** Replaying eliminations of n alone leaves every other digit k in
      exactly the cells that held it. */
  lemma {:induction false} EliminationsKeepOthers(s: Store, o: Out, n: int, k: int)
    requires Folds(s, o) && k != n
    requires forall m | m in o.sent :: m.IsNotNumber? && m.number == n
    ensures SameHolders(s, o.store, k)
    decreases |o.sent|
  {
    if o.sent != [] {
      var m := o.sent[0];
      var s1 := Update(s, m);
      assert m in o.sent;
      assert forall x | x in o.sent[1..] :: x in o.sent;
      EliminationsKeepOthers(s1, Out(o.store, o.sent[1..]), n, k);
    }
  }
}

=== FILE: grid.dfy ===
/** Cell addressing and row-major grids (Grid.kt). */
module Grids {

  /** A cell coordinate. A value type: two points are equal exactly when
      both coordinates are. */
  datatype Point = Point(x: int, y: int)

  /** A grid is a sequence of rows: the element at column x, row y is g[y][x]. */
  type Grid<T> = seq<seq<T>>

  /** g has `rows` rows of `cols` elements each. */
  predicate HasShape<T>(g: Grid<T>, rows: nat, cols: nat) {
    |g| == rows && forall y | 0 <= y < |g| :: |g[y]| == cols
  }

  /** Column x, row y addresses an element of g. */
  predicate InBounds<T>(g: Grid<T>, x: int, y: int) {
    0 <= y < |g| && 0 <= x < |g[y]|
  }

  /** `Grid.get(x, y)`: the element at column x, row y. */
  function AtXY<T>(g: Grid<T>, x: int, y: int): T
    requires InBounds(g, x, y)
  {
    g[y][x]
  }

  /** `Grid.get(point)`: addressing by a point agrees with addressing by its
      coordinates. */
  function At<T>(g: Grid<T>, p: Point): (v: T)
    requires InBounds(g, p.x, p.y)
    ensures v == AtXY(g, p.x, p.y)
  {
    g[p.y][p.x]
  }

  /** `grid(rows, cols, init)`: `rows` rows of `cols` elements, where the
      element at column x, row y is init(x, y). */
  function MakeGrid<T>(rows: nat, cols: nat, init: (int, int) -> T): (g: Grid<T>)
    ensures HasShape(g, rows, cols)
    ensures forall x, y | 0 <= x < cols && 0 <= y < rows :: InBounds(g, x, y) && AtXY(g, x, y) == init(x, y)
  {
    seq(rows, y => seq(cols, x => init(x, y)))
  }
}

=== FILE: last_in.dfy ===
/** Last-candidate deductions of a cell actor (CellActor.kt
    `checkIfOnlyOneOption`, `checkIfLastIn*`, `count`). */
module LastIn {
  import opened Grids
  import opened Ordered
  import opened Messages
  import opened Belief
  import opened Scan
  import opened Units
  import opened Emission
  import opened Solutions

  /** `checkIfOnlyOneOption`: when my cell is down to one candidate I
      announce it; my store already says so, so it does not change. */
  function CheckIfOnlyOneOption(me: Point, s: Store): (r: Out)
    requires ValidPoint(me)
    ensures Folds(s, r)
    ensures Done(me, s) ==> r.sent == [IsNumber(me, CellAt(s, me)[0])] && r.store == s
    ensures !Done(me, s) ==> r == Quiet(s)
  {
    if Done(me, s) then
      var o := DeduceNumber(me, s, CellAt(s, me)[0]);
      StoreExtensional(o.store, s);
      o
    else Quiet(s)
  }

  /** k is one of my candidates and is counted exactly once over ps. */
  predicate LastHere(s: Store, me: Point, ps: seq<Point>, k: int)
    requires ValidPoint(me) && OnBoard(ps)
  {
    k in CellAt(s, me) && CountHolding(s, ps, k) == 1
  }

  /** k is the first digit from lo up to 9 that LastHere accepts. */
  predicate FirstLast(s: Store, me: Point, ps: seq<Point>, lo: int, k: int)
    requires ValidPoint(me) && OnBoard(ps)
  {
    lo <= k <= 9 && LastHere(s, me, ps, k) && forall j | lo <= j < k :: !LastHere(s, me, ps, j)
  }

  /** The digit loop of `checkIfLastIn` from n on: announce the first
      digit LastHere accepts and stop. */
  function LastFrom(me: Point, s: Store, ps: seq<Point>, n: int): (r: Out)
    requires ValidPoint(me) && OnBoard(ps) && 1 <= n <= 10
    ensures Folds(s, r)
    ensures r.sent == [] ==> r.store == s && forall k | n <= k <= 9 :: !LastHere(s, me, ps, k)
    ensures r.sent != [] ==>
      && |r.sent| == 1 && r.sent[0].IsNumber? && r.sent[0].point == me
      && FirstLast(s, me, ps, n, r.sent[0].number)
      && CellAt(r.store, me) == [r.sent[0].number]
    decreases 10 - n
  {
    if n == 10 then Quiet(s)
    else if n in CellAt(s, me) && CountHolding(s, ps, n) == 1 then DeduceNumber(me, s, n)
    else LastFrom(me, s, ps, n + 1)
  }

  /** `checkIfLastIn(xRange, yRange)`: unless done, announce the smallest
      digit of mine that exactly one cell of the ranges holds. */
  function CheckIfLastIn(me: Point, s: Store, xs: seq<int>, ys: seq<int>): (r: Out)
    requires ValidPoint(me)
    requires forall v | v in xs :: 0 <= v < Size
    requires forall v | v in ys :: 0 <= v < Size
    ensures OnBoard(PointsIn(xs, ys))
    ensures Folds(s, r)
    ensures Done(me, s) ==> r == Quiet(s)
    ensures r.sent == [] ==> r.store == s
    ensures !Done(me, s) ==>
      (r.sent == [] <==> forall k | 1 <= k <= 9 :: !LastHere(s, me, PointsIn(xs, ys), k))
    ensures r.sent != [] ==>
      && |r.sent| == 1 && r.sent[0].IsNumber? && r.sent[0].point == me
      && FirstLast(s, me, PointsIn(xs, ys), 1, r.sent[0].number)
      && CellAt(r.store, me) == [r.sent[0].number]
  {
    PointsInOnBoard(xs, ys);
    if Done(me, s) then Quiet(s)
    else
      var r := LastFrom(me, s, PointsIn(xs, ys), 1);
      assert r.sent != [] ==> LastHere(s, me, PointsIn(xs, ys), r.sent[0].number);
      r
  }

  /** k is my candidate and no other cell of ps holds it. */
  ghost predicate OnlyHolder(s: Store, me: Point, ps: seq<Point>, k: int)
    requires ValidPoint(me) && OnBoard(ps)
  {
    k in CellAt(s, me) && forall p | p in ps && p != me :: k !in CellAt(s, p)
  }

  /** What a last-in-unit check over the unit ps does: unless my cell is
      done, it announces the smallest digit 1..9 of mine that no other cell
      of ps holds, and otherwise sends nothing and changes nothing. */
  ghost predicate LastInUnit(me: Point, s: Store, ps: seq<Point>, r: Out)
    requires ValidPoint(me) && OnBoard(ps)
  {
    && (r.sent == [] ==>
          r.store == s && (Done(me, s) || forall k | 1 <= k <= 9 :: !OnlyHolder(s, me, ps, k)))
    && (r.sent != [] ==>
          && !Done(me, s)
          && |r.sent| == 1 && r.sent[0].IsNumber? && r.sent[0].point == me
          && 1 <= r.sent[0].number <= 9
          && OnlyHolder(s, me, ps, r.sent[0].number)
          && (forall j | 1 <= j < r.sent[0].number :: !OnlyHolder(s, me, ps, j))
          && CellAt(r.store, me) == [r.sent[0].number])
  }

  /** When me is one of the distinct points ps, being counted once is being
      the only holder. */
  lemma LastHereIsOnlyHolder(s: Store, me: Point, ps: seq<Point>)
    requires ValidPoint(me) && OnBoard(ps) && Distinct(ps) && me in ps
    ensures forall k :: LastHere(s, me, ps, k) <==> OnlyHolder(s, me, ps, k)
  {
    forall k
      ensures LastHere(s, me, ps, k) <==> OnlyHolder(s, me, ps, k)
    {
      CountOneIff(s, ps, k, me);
    }
  }

  /** `checkIfLastInBlock`: a digit of mine that no other cell of my block
      can hold must be mine. */
  function CheckIfLastInBlock(me: Point, s: Store): (r: Out)
    requires ValidPoint(me)
    ensures Folds(s, r)
    ensures LastInUnit(me, s, BlockPoints(me), r)
  {
    var b := BlockPoint(me);
    LastHereIsOnlyHolder(s, me, BlockPoints(me));
    CheckIfLastIn(me, s, Range(b.x, b.x + 2), Range(b.y, b.y + 2))
  }

  /** `checkIfLastInRow` as written: it scans my column (x fixed to mine,
      y over 0..8), not my row. */
  function CheckIfLastInRow(me: Point, s: Store): (r: Out)
    requires ValidPoint(me)
    ensures Folds(s, r)
    ensures LastInUnit(me, s, ColumnPoints(me), r)
  {
    LastHereIsOnlyHolder(s, me, ColumnPoints(me));
    CheckIfLastIn(me, s, Range(me.x, me.x), Range(0, 8))
  }

  /** `checkIfLastInCol`: a digit of mine that no other cell of my column
      can hold must be mine. */
  function CheckIfLastInCol(me: Point, s: Store): (r: Out)
    requires ValidPoint(me)
    ensures Folds(s, r)
    ensures LastInUnit(me, s, ColumnPoints(me), r)
  {
    LastHereIsOnlyHolder(s, me, ColumnPoints(me));
    CheckIfLastIn(me, s, Range(me.x, me.x), Range(0, 8))
  }

  /** The row check evidently meant to scan my row: x over 0..8, y fixed
      to mine. */
  function CheckIfLastInRowIntended(me: Point, s: Store): (r: Out)
    requires ValidPoint(me)
    ensures Folds(s, r)
    ensures LastInUnit(me, s, RowPoints(me), r)
  {
    LastHereIsOnlyHolder(s, me, RowPoints(me));
    CheckIfLastIn(me, s, Range(0, 8), Range(me.y, me.y))
  }

  /** A cell of a store where cell (0, 0) may be 1 or 2, the rest of row
      0 may be 3..9, and every other cell may be anything. */
  function RowOnlyCell(x: int, y: int): OrderedSet {
    if x == 0 && y == 0 then [1, 2]
    else if y == 0 then [3, 4, 5, 6, 7, 8, 9]
    else Digits
  }

  /** The store made of RowOnlyCell. */
  function RowOnlyStore(): (s: Store)
    ensures forall p | ValidPoint(p) :: CellAt(s, p) == RowOnlyCell(p.x, p.y)
  {
    MakeGrid(Size, Size, RowOnlyCell)
  }

  /** When my cell may be 1 or 2 and some other cell q of my column may
      still be 1 or 2, the row check as written deduces nothing, however
      my row looks. */
  lemma {:induction false} LastInRowMissesRowSingle(me: Point, s: Store, q: Point)
    requires ValidPoint(me) && ValidPoint(q)
    requires CellAt(s, me) == [1, 2]
    requires q.x == me.x && q != me && 1 in CellAt(s, q) && 2 in CellAt(s, q)
    ensures CheckIfLastInRow(me, s).sent == []
  {
    var column := ColumnPoints(me);
    assert q in column;
    forall k | 1 <= k <= 9
      ensures !OnlyHolder(s, me, column, k)
    {
    }
  }

  /** When my cell may be 1 or 2 and no other cell of my row may be 1, the
      intended row check deduces 1. */
  lemma {:induction false} LastInRowIntendedFindsRowSingle(me: Point, s: Store)
    requires ValidPoint(me)
    requires CellAt(s, me) == [1, 2]
    requires forall p | ValidPoint(p) && p.y == me.y && p != me :: 1 !in CellAt(s, p)
    ensures CheckIfLastInRowIntended(me, s).sent == [IsNumber(me, 1)]
  {
    var row := RowPoints(me);
    var r := CheckIfLastInRowIntended(me, s);
    assert OnlyHolder(s, me, row, 1);
    assert r.sent != [];
    assert r.sent[0].number == 1;
  }

  /** RowOnlyStore shows the miss: cell (0, 0) is the last place for 1 in
      row 0, the row check as written deduces nothing there, and the
      intended one deduces 1. */
  lemma RowOnlyStoreShowsMiss(s: Store)
    requires forall p | ValidPoint(p) :: CellAt(s, p) == RowOnlyCell(p.x, p.y)
    ensures CheckIfLastInRow(Point(0, 0), s).sent == []
    ensures CheckIfLastInRowIntended(Point(0, 0), s).sent == [IsNumber(Point(0, 0), 1)]
  {
    assert CellAt(s, Point(0, 0)) == [1, 2];
    assert CellAt(s, Point(0, 1)) == Digits;
    LastInRowMissesRowSingle(Point(0, 0), s, Point(0, 1));
    LastInRowIntendedFindsRowSingle(Point(0, 0), s);
  }

  /** Announcing the only holder is sound: a solution that agrees with the
      unit's cells and puts k somewhere in the unit puts it in my cell. */
  lemma OnlyHolderSound(s: Store, me: Point, ps: seq<Point>, k: int, sol: Solution)
    requires ValidPoint(me) && OnBoard(ps) && OnlyHolder(s, me, ps, k)
    requires Consistent(s, sol, ps) && Has(sol, ps, k)
    ensures sol(me) == k
  {
    var p :| p in ps && sol(p) == k;
    assert k in CellAt(s, p);
  }

  /** A last-in-unit check keeps every solution that agrees with the store
      and holds each digit 1..9 somewhere in the unit in agreement with the
      store. */
  lemma LastInUnitSound(me: Point, s: Store, ps: seq<Point>, r: Out, sol: Solution)
    requires ValidPoint(me) && OnBoard(ps) && Folds(s, r) && LastInUnit(me, s, ps, r)
    requires ConsistentAll(s, sol) && forall k | 1 <= k <= 9 :: Has(sol, ps, k)
    ensures ConsistentAll(r.store, sol)
  {
    if r.sent != [] {
      var k := r.sent[0].number;
      OnlyHolderSound(s, me, ps, k, sol);
      assert r.sent == [r.sent[0]];
      assert r.store == Update(s, r.sent[0]) by {
        ApplyAllCons(s, r.sent[0], []);
        assert [r.sent[0]] + [] == r.sent;
      }
    }
  }

  /** checkIfLastInBlock is sound for solutions that hold every digit in
      my block. */
  lemma CheckIfLastInBlockSound(me: Point, s: Store, sol: Solution)
    requires ValidPoint(me) && ConsistentAll(s, sol)
    requires forall k | 1 <= k <= 9 :: Has(sol, BlockPoints(me), k)
    ensures ConsistentAll(CheckIfLastInBlock(me, s).store, sol)
  {
    LastInUnitSound(me, s, BlockPoints(me), CheckIfLastInBlock(me, s), sol);
  }

  /** checkIfLastInCol is sound for solutions that hold every digit in my
      column; so is checkIfLastInRow as written, which scans the same
      cells. */
  lemma CheckIfLastInColSound(me: Point, s: Store, sol: Solution)
    requires ValidPoint(me) && ConsistentAll(s, sol)
    requires forall k | 1 <= k <= 9 :: Has(sol, ColumnPoints(me), k)
    ensures ConsistentAll(CheckIfLastInCol(me, s).store, sol)
    ensures ConsistentAll(CheckIfLastInRow(me, s).store, sol)
  {
    LastInUnitSound(me, s, ColumnPoints(me), CheckIfLastInCol(me, s), sol);
    LastInUnitSound(me, s, ColumnPoints(me), CheckIfLastInRow(me, s), sol);
  }

  /** The intended row check is sound for solutions that hold every digit
      in my row. */
  lemma CheckIfLastInRowIntendedSound(me: Point, s: Store, sol: Solution)
    requires ValidPoint(me) && ConsistentAll(s, sol)
    requires forall k | 1 <= k <= 9 :: Has(sol, RowPoints(me), k)
    ensures ConsistentAll(CheckIfLastInRowIntended(me, s).store, sol)
  {
    LastInUnitSound(me, s, RowPoints(me), CheckIfLastInRowIntended(me, s), sol);
  }
}

=== FILE: messages.dfy ===
/** Deduction messages (CellActor.kt, `SudokuMessage`). */
module Messages {
  import opened Grids

  /** Side length of the board. */
  const Size: int := 9

  /** `IsNumber(p, n)`: cell p holds n. `IsNotNumber(p, n)`: cell p cannot
      hold n. The diagnostic `reason` text is not modelled. */
  datatype Msg =
    | IsNumber(point: Point, number: int)
    | IsNotNumber(point: Point, number: int)

  /** A point on the 9x9 board. */
  predicate ValidPoint(p: Point) {
    0 <= p.x < Size && 0 <= p.y < Size
  }

  /** Every message addresses a cell on the board. */
  predicate AllValid(ms: seq<Msg>) {
    forall m | m in ms :: ValidPoint(m.point)
  }
}

=== FILE: options.dfy ===
/** Optional values (Kotlin's nullable types) and outcomes that may fail with
    an exception (Kotlin's `require`). */
module Options {

  /** `T?`: either absent (null) or a value. */
  datatype Option<+T> = None | Some(value: T)

  /** A computation that either returns a value or throws. */
  datatype Result<+T, +E> = Success(value: T) | Failure(error: E)
}

=== FILE: ordered.dfy ===
/** Kotlin's `LinkedHashSet<Int>`, the candidate set of a cell: a sequence
    without repeated elements, iterated in insertion order. */
module Ordered {

  /** No element occurs twice. */
  predicate Distinct<T(==)>(s: seq<T>) {
    forall i, j | 0 <= i < j < |s| :: s[i] != s[j]
  }

  /** An insertion-ordered set of ints. */
  type OrderedSet = c: seq<int> | Distinct(c)

  /** `containsAll`: every element of a is an element of b. */
  predicate SubsetOf(a: seq<int>, b: seq<int>) {
    forall k | k in a :: k in b
  }

  /** Removing n from the set: n is gone, every other element stays, and the order of
      what remains is kept. */
  function Remove(c: OrderedSet, n: int): (r: OrderedSet)
    ensures forall k :: k in r <==> k in c && k != n
    ensures n !in c ==> r == c
    ensures |r| == if n in c then |c| - 1 else |c|
    decreases |c|
  {
    if c == [] then []
    else
      DistinctTail(c);
      var rest := Remove(c[1..], n);
      if c[0] == n then rest
      else
        DistinctTail(c);
        [c[0]] + rest
  }

  /** The elements of c that lie (inside) or do not lie (!inside) in t, in
      the order of c. */
  function Select(c: seq<int>, t: seq<int>, inside: bool): (r: seq<int>)
    ensures forall k :: k in r <==> k in c && (k in t <==> inside)
  {
    if c == [] then []
    else if (c[0] in t) == inside then [c[0]] + Select(c[1..], t, inside)
    else Select(c[1..], t, inside)
  }

  /** Removing x and then filtering out ys is filtering out x and ys. */
  lemma {:induction false} SelectRemove(c: OrderedSet, x: int, ys: seq<int>)
    ensures Select(Remove(c, x), ys, false) == Select(c, [x] + ys, false)
    decreases |c|
  {
    if c != [] {
      DistinctTail(c);
      SelectRemove(c[1..], x, ys);
    }
  }

  /** Filtering depends only on which elements of c lie in the filter. */
  lemma {:induction false} SelectAgree(c: seq<int>, t: seq<int>, u: seq<int>, inside: bool)
    requires forall k | k in c :: k in t <==> k in u
    ensures Select(c, t, inside) == Select(c, u, inside)
    decreases |c|
  {
    if c != [] {
      var x := c[0];
      assert x in c;
      assert forall k | k in c[1..] :: k in c;
      SelectAgree(c[1..], t, u, inside);
    }
  }

  /** Filtering out elements none of which occur keeps everything. */
  lemma {:induction false} SelectKeepsAll(c: seq<int>, t: seq<int>)
    requires forall k | k in c :: k !in t
    ensures Select(c, t, false) == c
    decreases |c|
  {
    if c != [] {
      var x := c[0];
      assert x in c;
      assert forall k | k in c[1..] :: k in c;
      SelectKeepsAll(c[1..], t);
      assert c == [x] + c[1..];
    }
  }

  /** Dropping the head of a distinct sequence leaves a distinct sequence
      without the head. */
  lemma DistinctTail<T>(s: seq<T>)
    requires Distinct(s) && s != []
    ensures Distinct(s[1..]) && s[0] !in s[1..]
  {
    forall i, j | 0 <= i < j < |s[1..]|
      ensures s[1..][i] != s[1..][j]
    {
      assert s[1..][i] == s[i + 1] && s[1..][j] == s[j + 1];
    }
    forall i | 0 <= i < |s[1..]|
      ensures s[1..][i] != s[0]
    {
      assert s[1..][i] == s[i + 1];
    }
  }

  /** A distinct sequence drawn from a set is no longer than the set. */
  lemma {:induction false} SubsetLen(a: seq<int>, b: OrderedSet)
    requires Distinct(a) && SubsetOf(a, b)
    ensures |a| <= |b|
    decreases |a|
  {
    if a != [] {
      DistinctTail(a);
      var b' := Remove(b, a[0]);
      assert SubsetOf(a[1..], b') by {
        forall k | k in a[1..] ensures k in b' {
          assert k in a && k != a[0];
        }
      }
      SubsetLen(a[1..], b');
    }
  }

  /** A distinct sequence drawn from b either has every element of b or is
      shorter than b. */
  lemma CoverOrShort(a: seq<int>, b: OrderedSet, x: int)
    requires Distinct(a) && SubsetOf(a, b)
    ensures x in a || x !in b || |a| < |b|
  {
    if x in b && x !in a {
      SubsetLen(a, Remove(b, x));
    }
  }

  /** The pigeonhole principle: a distinct sequence drawn from b and as long
      as b contains all of b. */
  lemma Pigeonhole(a: seq<int>, b: OrderedSet)
    requires Distinct(a) && SubsetOf(a, b) && |a| >= |b|
    ensures SubsetOf(b, a)
  {
    forall x | x in b
      ensures x in a
    {
      CoverOrShort(a, b, x);
    }
  }

  /** The replies, one after another. */
  function Flatten<T>(rs: seq<seq<T>>): seq<T>
    decreases |rs|
  {
    if rs == [] then [] else rs[0] + Flatten(rs[1..])
  }

  /** Each item received followed by the replies to it, in order. */
  function Interleave<T>(xs: seq<T>, rs: seq<seq<T>>): seq<T>
    requires |xs| == |rs|
    decreases |xs|
  {
    if xs == [] then [] else [xs[0]] + rs[0] + Interleave(xs[1..], rs[1..])
  }

  /** An interleaving holds exactly the items received and exactly the
      replies. */
  lemma {:induction false} InterleaveMultiset<T>(xs: seq<T>, rs: seq<seq<T>>)
    requires |xs| == |rs|
    ensures multiset(Interleave(xs, rs)) == multiset(xs) + multiset(Flatten(rs))
    decreases |xs|
  {
    if xs != [] {
      InterleaveMultiset(xs[1..], rs[1..]);
      assert xs == [xs[0]] + xs[1..];
    }
  }

  /** Receiving one more item in front: the first h + 1 items interleaved
      with their replies are the first item, its replies, then the next h
      interleaved with theirs. */
  lemma InterleaveStep<T>(xs: seq<T>, h: nat, r0: seq<T>, rs: seq<seq<T>>)
    requires h < |xs| && |rs| == h
    ensures Interleave(xs[..h + 1], [r0] + rs) == [xs[0]] + r0 + Interleave(xs[1..][..h], rs)
    ensures Flatten([r0] + rs) == r0 + Flatten(rs)
  {
    assert xs[..h + 1][1..] == xs[1..][..h];
    assert ([r0] + rs)[1..] == rs;
  }

  /** The first item received and its replies alone. */
  lemma InterleaveOne<T>(xs: seq<T>, r0: seq<T>)
    requires 0 < |xs|
    ensures Interleave(xs[..1], [r0]) == [xs[0]] + r0
    ensures Flatten([r0]) == r0
  {
    InterleaveStep(xs, 0, r0, []);
    assert [r0] + [] == [r0];
    assert [xs[0]] + r0 + [] == [xs[0]] + r0;
    assert r0 + [] == r0;
  }

  /** The bookkeeping of one more item handled in front of the later ones:
      the log, the replies and their counts all extend together. */
  lemma InterleaveCons<T>(xs: seq<T>, h: nat, r0: seq<T>, log: seq<T>, sent: seq<T>, rs: seq<seq<T>>)
    requires h < |xs| && |rs| == h && sent == Flatten(rs) && log == Interleave(xs[1..][..h], rs)
    ensures [xs[0]] + r0 + log == Interleave(xs[..h + 1], [r0] + rs)
    ensures r0 + sent == Flatten([r0] + rs) && ([r0] + rs)[1..] == rs
    ensures multiset([xs[0]] + r0 + log) == multiset(xs[..h + 1]) + multiset(r0 + sent)
  {
    InterleaveStep(xs, h, r0, rs);
    InterleaveMultiset(xs[..h + 1], [r0] + rs);
  }

  /** The bookkeeping of a first item that ends the run. */
  lemma InterleaveLast<T>(xs: seq<T>, r0: seq<T>)
    requires 0 < |xs|
    ensures [xs[0]] + r0 == Interleave(xs[..1], [r0])
    ensures r0 == Flatten([r0])
    ensures multiset([xs[0]] + r0) == multiset(xs[..1]) + multiset(r0)
  {
    InterleaveOne(xs, r0);
    InterleaveMultiset(xs[..1], [r0]);
  }
}

=== FILE: replay.dfy ===
/** The receive loop of an actor, for any per-message step: each message
    is applied to the store and then answered, and the loop ends when a
    step says so (the loop in CellActor.kt `start`). */
module Replay {
  import opened Grids
  import opened Ordered
  import opened Messages
  import opened Belief
  import opened Emission

  /** What handling one message does, and whether the actor then stops
      listening (cancelling its subscription). */
  datatype Step = Step(out: Out, stop: bool)

  /** A step applies the message first and then keeps the store the replay
      of what it sends. */
  ghost predicate Replays(f: (Store, Msg) -> Step) {
    forall s: Store, m: Msg | ValidPoint(m.point) :: Folds(Update(s, m), f(s, m).out)
  }

  /** replies are what f sends for the messages of inbox in turn, from
      store s, and stopped says whether the last of them stopped the loop;
      no message before the last one stops it. */
  ghost predicate Follows(f: (Store, Msg) -> Step, s: Store, inbox: seq<Msg>, replies: seq<seq<Msg>>, stopped: bool)
    decreases |replies|
  {
    if replies == [] then !stopped
    else
      && inbox != []
      && var st := f(s, inbox[0]);
      && replies[0] == st.out.sent
      && if st.stop then |replies| == 1 && stopped
         else Follows(f, st.out.store, inbox[1..], replies[1..], stopped)
  }

  /** A message that does not stop the loop, answered, in front of
      replies that follow from the store it leaves. */
  lemma FollowsCons(f: (Store, Msg) -> Step, s: Store, inbox: seq<Msg>, rest: seq<seq<Msg>>, stopped: bool)
    requires inbox != [] && !f(s, inbox[0]).stop
    requires Follows(f, f(s, inbox[0]).out.store, inbox[1..], rest, stopped)
    ensures Follows(f, s, inbox, [f(s, inbox[0]).out.sent] + rest, stopped)
  {
    assert ([f(s, inbox[0]).out.sent] + rest)[1..] == rest;
  }

  /** A message that stops the loop, answered. */
  lemma FollowsLast(f: (Store, Msg) -> Step, s: Store, inbox: seq<Msg>)
    requires inbox != [] && f(s, inbox[0]).stop
    ensures Follows(f, s, inbox, [f(s, inbox[0]).out.sent], true)
  {
  }

  /** For each i, reply i is what f sends for message i on the store that
      message finds, the replay of every earlier message and its replies;
      message i stops the loop exactly when it is the last one handled and
      the loop stopped. */
  ghost predicate InOrder(f: (Store, Msg) -> Step, s: Store, inbox: seq<Msg>, replies: seq<seq<Msg>>, stopped: bool)
    requires AllValid(inbox) && |replies| <= |inbox|
  {
    && AllRepliesValid(replies)
    && forall i | 0 <= i < |replies| ::
      && var st := f(Replayed(s, inbox, replies, i), inbox[i]);
      && replies[i] == st.out.sent
      && (st.stop <==> stopped && i == |replies| - 1)
  }

  /** Replies that follow a replaying step message by message are, for
      each i, its answer to message i on the replay of everything before. */
  lemma {:induction false} FollowsInOrder(f: (Store, Msg) -> Step, s: Store, inbox: seq<Msg>, replies: seq<seq<Msg>>, stopped: bool)
    requires Replays(f) && AllValid(inbox) && |replies| <= |inbox|
    requires Follows(f, s, inbox, replies, stopped)
    ensures InOrder(f, s, inbox, replies, stopped)
    decreases |replies|
  {
    if replies != [] {
      var m := inbox[0];
      var st := f(s, m);
      assert m in inbox;
      assert Folds(Update(s, m), st.out);
      if st.stop {
        ReplayStart(s, inbox, replies);
      } else {
        var inbox' := inbox[1..];
        var replies' := replies[1..];
        assert forall x | x in inbox' :: x in inbox;
        FollowsInOrder(f, st.out.store, inbox', replies', stopped);
        ReplayStart(s, inbox, replies);
        forall i | 0 < i < |replies|
          ensures Replayed(s, inbox, replies, i) == Replayed(st.out.store, inbox', replies', i - 1)
          ensures inbox[i] == inbox'[i - 1] && replies[i] == replies'[i - 1]
        {
          ReplayShift(s, st.out.store, inbox, replies, i);
        }
      }
    }
  }
}

=== FILE: scan.dfy ===
/** Ranges, point enumerations and counting over a store: the Kotlin
    `IntRange`, `flatMap`, `filter` and `count` idioms the cell actor uses. */
module Scan {
  import opened Grids
  import opened Messages
  import opened Ordered
  import opened Belief
  import opened Units

  /** The range lo..hi, ascending; empty when hi < lo. */
  function Range(lo: int, hi: int): (r: seq<int>)
    ensures forall v :: v in r <==> lo <= v <= hi
    ensures Distinct(r)
  {
    var r := seq(if hi < lo then 0 else hi - lo + 1, i => lo + i);
    forall v | lo <= v <= hi
      ensures v in r
    {
      assert r[v - lo] == v;
    }
    r
  }

  /** xs with every occurrence of v dropped. */
  function Without(xs: seq<int>, v: int): (r: seq<int>)
    ensures forall u :: u in r <==> u in xs && u != v
  {
    if xs == [] then []
    else if xs[0] == v then Without(xs[1..], v)
    else [xs[0]] + Without(xs[1..], v)
  }

  /** Every point with its x in xs and its y in ys, with x as the outer
      loop. */
  function PointsIn(xs: seq<int>, ys: seq<int>): (ps: seq<Point>)
    ensures forall p :: p in ps <==> p.x in xs && p.y in ys
  {
    if xs == [] then []
    else
      var column := seq(|ys|, j requires 0 <= j < |ys| => Point(xs[0], ys[j]));
      forall y | y in ys
        ensures Point(xs[0], y) in column
      {
        var j :| 0 <= j < |ys| && ys[j] == y;
        assert column[j] == Point(xs[0], y);
      }
      column + PointsIn(xs[1..], ys)
  }

  /** Every point lies on the board. */
  predicate OnBoard(ps: seq<Point>) {
    forall p | p in ps :: ValidPoint(p)
  }

  /** Points drawn from on-board coordinates lie on the board. */
  lemma PointsInOnBoard(xs: seq<int>, ys: seq<int>)
    requires forall v | v in xs :: 0 <= v < Size
    requires forall v | v in ys :: 0 <= v < Size
    ensures OnBoard(PointsIn(xs, ys))
  {
  }

  /** Distinct coordinates give distinct points. */
  lemma {:induction false} PointsInDistinct(xs: seq<int>, ys: seq<int>)
    requires Distinct(xs) && Distinct(ys)
    ensures Distinct(PointsIn(xs, ys))
    decreases |xs|
  {
    if xs != [] {
      var column := seq(|ys|, j requires 0 <= j < |ys| => Point(xs[0], ys[j]));
      var rest := PointsIn(xs[1..], ys);
      assert Distinct(xs[1..]) by {
        forall i, j | 0 <= i < j < |xs[1..]| ensures xs[1..][i] != xs[1..][j] {
          assert xs[1..][i] == xs[i + 1] && xs[1..][j] == xs[j + 1];
        }
      }
      PointsInDistinct(xs[1..], ys);
      assert PointsIn(xs, ys) == column + rest;
      forall i, j | 0 <= i < j < |column + rest|
        ensures (column + rest)[i] != (column + rest)[j]
      {
        if j < |column| {
        } else if i < |column| {
          assert (column + rest)[j] in rest;
          assert xs[0] !in xs[1..] by {
            forall k | 0 <= k < |xs[1..]| ensures xs[1..][k] != xs[0] {
              assert xs[1..][k] == xs[k + 1];
            }
          }
        } else {
          assert (column + rest)[i] == rest[i - |column|];
          assert (column + rest)[j] == rest[j - |column|];
        }
      }
    }
  }

  /** `count(xRange, yRange, n)`: how many of the points hold n as a
      candidate. */
  function CountHolding(s: Store, ps: seq<Point>, n: int): nat
    requires OnBoard(ps)
    decreases |ps|
  {
    if ps == [] then 0
    else (if n in CellAt(s, ps[0]) then 1 else 0) + CountHolding(s, ps[1..], n)
  }

  /** A count of zero means no listed point holds n. */
  lemma {:induction false} CountZero(s: Store, ps: seq<Point>, n: int)
    requires OnBoard(ps)
    ensures CountHolding(s, ps, n) == 0 <==> forall p | p in ps :: n !in CellAt(s, p)
    decreases |ps|
  {
    if ps != [] {
      CountZero(s, ps[1..], n);
      assert forall p | p in ps[1..] :: p in ps;
      assert forall p | p in ps :: p == ps[0] || p in ps[1..];
    }
  }

  /** A count of one, with q among the holders, means q is the only holder. */
  lemma {:induction false} CountOneOnly(s: Store, ps: seq<Point>, n: int, q: Point)
    requires OnBoard(ps) && q in ps && ValidPoint(q) && n in CellAt(s, q)
    requires CountHolding(s, ps, n) == 1
    ensures forall p | p in ps && n in CellAt(s, p) :: p == q
    decreases |ps|
  {
    assert forall p | p in ps :: p == ps[0] || p in ps[1..];
    CountZero(s, ps[1..], n);
    if ps[0] != q {
      assert q in ps[1..];
      CountOneOnly(s, ps[1..], n, q);
    }
  }

  /** A count of two over distinct points, with q among the holders, means
      some other point holds n as well. */
  lemma {:induction false} CountTwoOther(s: Store, ps: seq<Point>, n: int, q: Point)
    requires OnBoard(ps) && Distinct(ps) && q in ps && ValidPoint(q) && n in CellAt(s, q)
    requires CountHolding(s, ps, n) == 2
    ensures exists p | p in ps :: p != q && n in CellAt(s, p)
    decreases |ps|
  {
    var rest := ps[1..];
    assert forall p | p in ps :: p == ps[0] || p in rest;
    assert forall p | p in rest :: p in ps;
    assert Distinct(rest) by {
      forall i, j | 0 <= i < j < |rest| ensures rest[i] != rest[j] {
        assert rest[i] == ps[i + 1] && rest[j] == ps[j + 1];
      }
    }
    if ps[0] == q {
      assert q !in rest by {
        forall k | 0 <= k < |rest| ensures rest[k] != q {
          assert rest[k] == ps[k + 1];
        }
      }
      CountZero(s, rest, n);
      var p :| p in rest && n in CellAt(s, p);
      assert p in ps && p != q;
    } else if n in CellAt(s, ps[0]) {
      assert ps[0] in ps;
    } else {
      assert q in rest;
      CountTwoOther(s, rest, n, q);
    }
  }

  /** Over distinct points, q is the only holder of n exactly when n is
      counted once and q holds it. */
  lemma {:induction false} CountOneIff(s: Store, ps: seq<Point>, n: int, q: Point)
    requires OnBoard(ps) && Distinct(ps) && q in ps && ValidPoint(q)
    ensures (n in CellAt(s, q) && CountHolding(s, ps, n) == 1)
        <==> (n in CellAt(s, q) && forall p | p in ps && p != q :: n !in CellAt(s, p))
    decreases |ps|
  {
    var rest := ps[1..];
    assert forall p | p in ps :: p == ps[0] || p in rest;
    assert forall p | p in rest :: p in ps;
    assert Distinct(rest) by {
      forall i, j | 0 <= i < j < |rest| ensures rest[i] != rest[j] {
        assert rest[i] == ps[i + 1] && rest[j] == ps[j + 1];
      }
    }
    CountZero(s, rest, n);
    if ps[0] == q {
      assert q !in rest by {
        forall k | 0 <= k < |rest| ensures rest[k] != q {
          assert rest[k] == ps[k + 1];
        }
      }
    } else {
      assert q in rest;
      CountOneIff(s, rest, n, q);
    }
  }

  /** Counts depend only on which listed points hold n. */
  lemma {:induction false} CountAgree(s: Store, t: Store, ps: seq<Point>, n: int)
    requires OnBoard(ps)
    requires forall p | p in ps :: n in CellAt(s, p) <==> n in CellAt(t, p)
    ensures CountHolding(s, ps, n) == CountHolding(t, ps, n)
    decreases |ps|
  {
    if ps != [] {
      assert ps[0] in ps;
      assert forall p | p in ps[1..] :: p in ps;
      CountAgree(s, t, ps[1..], n);
    }
  }

  /** The cells of my block. */
  function BlockPoints(me: Point): (ps: seq<Point>)
    requires ValidPoint(me)
    ensures OnBoard(ps) && Distinct(ps) && me in ps
    ensures forall p :: p in ps <==> ValidPoint(p) && InBlock(me, p)
  {
    var b := BlockPoint(me);
    PointsInDistinct(Range(b.x, b.x + 2), Range(b.y, b.y + 2));
    PointsIn(Range(b.x, b.x + 2), Range(b.y, b.y + 2))
  }

  /** The cells of my column. */
  function ColumnPoints(me: Point): (ps: seq<Point>)
    requires ValidPoint(me)
    ensures OnBoard(ps) && Distinct(ps) && me in ps
    ensures forall p :: p in ps <==> ValidPoint(p) && p.x == me.x
  {
    PointsInDistinct(Range(me.x, me.x), Range(0, 8));
    PointsIn(Range(me.x, me.x), Range(0, 8))
  }

  /** The cells of my row. */
  function RowPoints(me: Point): (ps: seq<Point>)
    requires ValidPoint(me)
    ensures OnBoard(ps) && Distinct(ps) && me in ps
    ensures forall p :: p in ps <==> ValidPoint(p) && p.y == me.y
  {
    PointsInDistinct(Range(0, 8), Range(me.y, me.y));
    PointsIn(Range(0, 8), Range(me.y, me.y))
  }
}

=== FILE: solutions.dfy ===
/** Completed boards, used to state that a deduction rule is sound: it never
    rules out the digit a solution puts in a cell. */
module Solutions {
  import opened Grids
  import opened Messages
  import opened Belief

  /** A digit for every cell. */
  type Solution = Point -> int

  /** Every listed cell still has its solution digit as a candidate. */
  predicate Consistent(s: Store, sol: Solution, ps: seq<Point>)
    requires forall p | p in ps :: ValidPoint(p)
  {
    forall p | p in ps :: sol(p) in CellAt(s, p)
  }

  /** No two listed cells share a digit, as in a row, column or block of a
      solved sudoku. */
  predicate Injective(sol: Solution, ps: seq<Point>) {
    forall p, q | p in ps && q in ps && p != q :: sol(p) != sol(q)
  }

  /** The solution agrees with every cell of the store. */
  ghost predicate ConsistentAll(s: Store, sol: Solution) {
    forall p | ValidPoint(p) :: sol(p) in CellAt(s, p)
  }

  /** Row y of the solution holds n somewhere. */
  ghost predicate RowHas(sol: Solution, y: int, n: int) {
    exists x | 0 <= x < Size :: sol(Point(x, y)) == n
  }

  /** No column of the solution repeats a digit. */
  ghost predicate ColumnsInjective(sol: Solution) {
    forall p, q | ValidPoint(p) && ValidPoint(q) && p.x == q.x && p != q :: sol(p) != sol(q)
  }

  /** No row of the solution repeats a digit. */
  ghost predicate RowsInjective(sol: Solution) {
    forall p, q | ValidPoint(p) && ValidPoint(q) && p.y == q.y && p != q :: sol(p) != sol(q)
  }

  /** Some listed cell of the solution holds n. */
  ghost predicate Has(sol: Solution, ps: seq<Point>, n: int) {
    exists p | p in ps :: sol(p) == n
  }
}

=== FILE: sudoku.dfy ===
/** A puzzle as given (Sudoku.kt): a 9x9 grid of optional digits, parsed from
    an 81-character line read row by row. */
module Sudokus {
  import opened Grids
  import opened Options
  import opened Messages

  /** Why building a puzzle failed: `require` in `parseSudoku`, which names
      the offending line, or the bare `require` of the class. */
  datatype Error = ParseError(line: string) | FailedRequirement

  /** `class Sudoku(grid: Grid<Int?>)`: the grid as given, empty cells
      absent. Built only through NewSudoku. */
  datatype Sudoku = Sudoku(grid: Grid<Option<int>>)

  /** The class's `init` check: 9 rows of 9 cells, else it throws. */
  function NewSudoku(grid: Grid<Option<int>>): (r: Result<Sudoku, Error>)
    ensures r.Success? ==> r.value.grid == grid
    ensures r.Failure? ==> r.error == FailedRequirement
    ensures r.Success? <==> |grid| == Size && forall y | 0 <= y < |grid| :: |grid[y]| == Size
  {
    if HasShape(grid, Size, Size) then Success(Sudoku(grid)) else Failure(FailedRequirement)
  }

  /** A puzzle the class accepted. */
  predicate WellShaped(sd: Sudoku) {
    HasShape(sd.grid, Size, Size)
  }

  /** `get(x, y)`: the digit at column x, row y, if any. */
  function Get(sd: Sudoku, x: int, y: int): (v: Option<int>)
    requires WellShaped(sd) && 0 <= x < Size && 0 <= y < Size
    ensures v == AtXY(sd.grid, x, y)
  {
    sd.grid[y][x]
  }

  /** `toIntOrNull()` on a one-character string: the value of a decimal
      digit, absent for anything else. A lone sign is not a number. */
  function DigitOf(c: char): (r: Option<int>)
    ensures r.Some? <==> '0' <= c <= '9'
    ensures r.Some? ==> 0 <= r.value <= 9 && ('0' as int + r.value) as char == c
  {
    if '0' <= c <= '9' then Some(c as int - '0' as int) else None
  }

  /** The end of the piece of `chunked(9)` that starts at index 9i. */
  function ChunkEnd(i: int, len: int): int {
    if 9 * i + 9 <= len then 9 * i + 9 else len
  }

  /** `chunked(9)`: consecutive pieces of nine, the last one shorter when
      the length is not a multiple of nine. */
  function Chunks9<T>(s: seq<T>): (r: seq<seq<T>>)
    ensures |r| == (|s| + 8) / 9
    ensures forall i | 0 <= i < |r| :: 9 * i < |s| && r[i] == s[9 * i .. ChunkEnd(i, |s|)]
  {
    seq((|s| + 8) / 9, i requires 0 <= i < (|s| + 8) / 9 => s[9 * i .. ChunkEnd(i, |s|)])
  }

  /** Each character of a row read on its own, in order. */
  function RowDigits(row: string): (r: seq<Option<int>>)
    ensures |r| == |row|
    ensures forall j | 0 <= j < |row| :: r[j] == DigitOf(row[j])
  {
    seq(|row|, j requires 0 <= j < |row| => DigitOf(row[j]))
  }

  /** `parseSudoku(line)`: nine rows of nine characters, row by row; each
      character a digit or, for anything else, an empty cell. */
  function ParseSudoku(line: string): (r: Result<Sudoku, Error>)
    ensures r.Failure? ==> r.error == ParseError(line)
  {
    var rows := Chunks9(line);
    if |rows| != Size then Failure(ParseError(line))
    else if exists i | 0 <= i < |rows| :: |rows[i]| != Size then Failure(ParseError(line))
    else
      var grid := seq(|rows|, i requires 0 <= i < |rows| => RowDigits(rows[i]));
      var sd := NewSudoku(grid);
      assert sd.Success?;
      sd
  }

  /** Parsing succeeds exactly on lines of 81 characters. */
  lemma ParseSucceedsIff(line: string)
    ensures ParseSudoku(line).Success? <==> |line| == Size * Size
  {
    var rows := Chunks9(line);
    if |rows| == Size && |line| != Size * Size {
      assert |rows[8]| != Size;
    }
  }

  /** A parsed puzzle is well shaped, and cell (x, y) is the digit of
      character 9y + x. */
  lemma ParseGet(line: string)
    requires ParseSudoku(line).Success?
    ensures WellShaped(ParseSudoku(line).value)
    ensures forall x, y | 0 <= x < Size && 0 <= y < Size ::
      Get(ParseSudoku(line).value, x, y) == DigitOf(line[Size * y + x])
  {
    ParseSucceedsIff(line);
  }

  /** Every cell of a parsed puzzle is empty or a digit 0..9, and a '0' in
      the line is read as the digit 0 rather than as an empty cell. */
  lemma ParseValues(line: string)
    requires ParseSudoku(line).Success?
    ensures WellShaped(ParseSudoku(line).value)
    ensures forall x, y | 0 <= x < Size && 0 <= y < Size ::
      var v := Get(ParseSudoku(line).value, x, y);
      (v.None? || 0 <= v.value <= 9) && (line[Size * y + x] == '0' ==> v == Some(0))
  {
    ParseGet(line);
  }

  /** What `forEach(action)` calls `action` with, in order: every cell
      holding a digit, columns outer and rows inner, counting cells in that
      order from index i = 9x + y on. */
  function Visits(sd: Sudoku, i: int): (r: seq<(int, int, int)>)
    requires WellShaped(sd) && 0 <= i <= Size * Size
    decreases Size * Size - i
  {
    if i == Size * Size then []
    else
      var x := i / Size;
      var y := i % Size;
      match Get(sd, x, y)
      case None => Visits(sd, i + 1)
      case Some(n) => [(x, y, n)] + Visits(sd, i + 1)
  }

  /** `forEach`: the column, row and digit of each call of the action, in
      order. */
  function ForEach(sd: Sudoku): (r: seq<(int, int, int)>)
    requires WellShaped(sd)
  {
    Visits(sd, 0)
  }

  /** Cell (x, y) comes before (x', y') in forEach's order. */
  predicate Before(a: (int, int, int), b: (int, int, int)) {
    a.0 < b.0 || (a.0 == b.0 && a.1 < b.1)
  }

  /** The calls from index i on are exactly the cells from there on that
      hold a digit, each with its digit, in strictly increasing order, so
      each cell once. */
  lemma {:induction false} VisitsExact(sd: Sudoku, i: int)
    requires WellShaped(sd) && 0 <= i <= Size * Size
    ensures forall c | c in Visits(sd, i) ::
      0 <= c.0 < Size && 0 <= c.1 < Size && i <= Size * c.0 + c.1 && Get(sd, c.0, c.1) == Some(c.2)
    ensures forall x, y | 0 <= x < Size && 0 <= y < Size && i <= Size * x + y && Get(sd, x, y).Some? ::
      (x, y, Get(sd, x, y).value) in Visits(sd, i)
    ensures forall j, k | 0 <= j < k < |Visits(sd, i)| :: Before(Visits(sd, i)[j], Visits(sd, i)[k])
    decreases Size * Size - i
  {
    if i < Size * Size {
      VisitsExact(sd, i + 1);
      var x := i / Size;
      var y := i % Size;
      assert i == Size * x + y;
      var rest := Visits(sd, i + 1);
      forall c | c in rest
        ensures Before((x, y, 0), c)
      {
      }
      forall x', y' | 0 <= x' < Size && 0 <= y' < Size && i <= Size * x' + y' && Get(sd, x', y').Some?
        ensures (x', y', Get(sd, x', y').value) in Visits(sd, i)
      {
        if Size * x' + y' == i {
          PositionOf(i, x', y');
        }
      }
    }
  }

  /** Position i of the column-major walk is column i / 9, row i % 9. */
  lemma PositionOf(i: int, x: int, y: int)
    requires 0 <= x < Size && 0 <= y < Size && i == Size * x + y
    ensures x == i / Size && y == i % Size
  {
  }

  /** forEach calls `action` once for each given cell, with its digit, in
      order of columns then rows. */
  lemma ForEachExact(sd: Sudoku)
    requires WellShaped(sd)
    ensures forall c | c in ForEach(sd) :: 0 <= c.0 < Size && 0 <= c.1 < Size && Get(sd, c.0, c.1) == Some(c.2)
    ensures forall x, y | 0 <= x < Size && 0 <= y < Size && Get(sd, x, y).Some? ::
      (x, y, Get(sd, x, y).value) in ForEach(sd)
    ensures forall j, k | 0 <= j < k < |ForEach(sd)| :: Before(ForEach(sd)[j], ForEach(sd)[k])
  {
    VisitsExact(sd, 0);
  }
}

=== FILE: tuples.dfy ===
/** Naked tuples (`checkTuple`): when exactly as many cells of a unit as my
    cell has candidates are confined to my candidates, those cells share
    the digits among themselves and every other cell of the unit loses
    them. */
module Tuples {
  import opened Grids
  import opened Ordered
  import opened Messages
  import opened Belief
  import opened Scan
  import opened Emission
  import opened Units
  import opened Solutions

  /** The cells of ps whose every candidate lies in tuple. */
  ghost function Confined(s: Store, ps: seq<Point>, tuple: seq<int>): set<Point>
    requires OnBoard(ps)
  {
    set p | p in ps && SubsetOf(CellAt(s, p), tuple)
  }

  /** The cells of ps, in order, whose candidates all lie within the tuple. */
  function SamePossible(s: Store, ps: seq<Point>, tuple: seq<int>): (r: seq<Point>)
    requires OnBoard(ps)
    ensures forall p :: p in r <==> p in ps && SubsetOf(CellAt(s, p), tuple)
    decreases |ps|
  {
    if ps == [] then []
    else
      var rest := SamePossible(s, ps[1..], tuple);
      assert forall p | p in ps[1..] :: p in ps;
      assert forall p | p in ps :: p == ps[0] || p in ps[1..];
      if SubsetOf(CellAt(s, ps[0]), tuple) then [ps[0]] + rest else rest
  }

  /** Over distinct points the filter lists no cell twice. */
  lemma {:induction false} SamePossibleDistinct(s: Store, ps: seq<Point>, tuple: seq<int>)
    requires OnBoard(ps) && Distinct(ps)
    ensures Distinct(SamePossible(s, ps, tuple))
    decreases |ps|
  {
    if ps != [] {
      DistinctTail(ps);
      assert OnBoard(ps[1..]);
      SamePossibleDistinct(s, ps[1..], tuple);
    }
  }

  /** Over distinct points the filter lists every confined cell once. */
  lemma {:induction false} SamePossibleCount(s: Store, ps: seq<Point>, tuple: seq<int>)
    requires OnBoard(ps) && Distinct(ps)
    ensures Distinct(SamePossible(s, ps, tuple))
    ensures |SamePossible(s, ps, tuple)| == |Confined(s, ps, tuple)|
    decreases |ps|
  {
    SamePossibleDistinct(s, ps, tuple);
    if ps != [] {
      DistinctTail(ps);
      assert OnBoard(ps[1..]);
      SamePossibleCount(s, ps[1..], tuple);
      assert forall p | p in ps[1..] :: p in ps;
      assert forall p | p in ps :: p == ps[0] || p in ps[1..];
      if SubsetOf(CellAt(s, ps[0]), tuple) {
        assert Confined(s, ps, tuple) == {ps[0]} + Confined(s, ps[1..], tuple);
      } else {
        assert Confined(s, ps, tuple) == Confined(s, ps[1..], tuple);
      }
    }
  }

  /** A confined cell has nothing to lose: the "interior" branch emits
      nothing and leaves the store as it is. */
  lemma InteriorEmitsNothing(s: Store, p: Point, tuple: seq<int>)
    requires ValidPoint(p) && SubsetOf(CellAt(s, p), tuple)
    ensures EliminateEach(s, p, Select(CellAt(s, p), tuple, false)) == Quiet(s)
  {
  }

  /** The candidates `checkTuple` rules out of cell p: the ones outside the
      tuple if p is confined (none, by InteriorEmitsNothing), else the ones
      inside it. */
  function Doomed(s: Store, p: Point, same: seq<Point>, tuple: seq<int>): seq<int>
    requires ValidPoint(p)
  {
    if p in same then Select(CellAt(s, p), tuple, false)
    else Select(CellAt(s, p), tuple, true)
  }

  /** The cells after the elimination loop of `checkTuple` over ps: those
      outside ps and the confined ones are as they were, the others have
      lost their tuple digits. */
  ghost predicate TupleCells(s: Store, ps: seq<Point>, same: seq<Point>, tuple: seq<int>, t: Store)
    requires OnBoard(ps)
  {
    && (forall p | ValidPoint(p) && (p !in ps || p in same) :: CellAt(t, p) == CellAt(s, p))
    && (forall p | p in ps && p !in same :: CellAt(t, p) == Select(CellAt(s, p), tuple, false))
  }

  /** The messages of the elimination loop: each removes a tuple digit the
      cell held from a cell of ps that is not confined. */
  ghost predicate TupleSent(s: Store, ps: seq<Point>, same: seq<Point>, tuple: seq<int>, ms: seq<Msg>)
    requires OnBoard(ps)
  {
    && OnlyEliminations(ms)
    && (forall m | m in ms ::
          m.point in ps && m.point !in same && m.number in tuple && m.number in CellAt(s, m.point))
  }

  /** What the elimination loop of `checkTuple` over ps achieves from s,
      apart from replaying through the store. */
  ghost predicate TupleDone(s: Store, ps: seq<Point>, same: seq<Point>, tuple: seq<int>, r: Out)
    requires OnBoard(ps)
  {
    TupleCells(s, ps, same, tuple, r.store) && TupleSent(s, ps, same, tuple, r.sent)
  }

  /** The elimination loop of `checkTuple` over the points ps, where same
      lists the confined ones. */
  function TupleFrom(s: Store, ps: seq<Point>, same: seq<Point>, tuple: seq<int>): (r: Out)
    requires OnBoard(ps) && Distinct(ps)
    requires forall p | p in ps :: p in same <==> SubsetOf(CellAt(s, p), tuple)
    ensures Folds(s, r)
    ensures TupleDone(s, ps, same, tuple, r)
    decreases |ps|
  {
    if ps == [] then Quiet(s)
    else
      var a := EliminateEach(s, ps[0], Doomed(s, ps[0], same, tuple));
      TupleHead(s, ps[0], same, tuple, a);
      TupleRest(s, ps, same, tuple, a);
      var b := TupleFrom(a.store, ps[1..], same, tuple);
      ThenFolds(s, a, b);
      TupleJoin(s, ps, same, tuple, a, b);
      Then(a, b)
  }

  /** One cell of the loop: a confined cell is left alone, any other loses
      its tuple digits, one message each. */
  lemma TupleHead(s: Store, p: Point, same: seq<Point>, tuple: seq<int>, a: Out)
    requires ValidPoint(p) && (p in same <==> SubsetOf(CellAt(s, p), tuple))
    requires a == EliminateEach(s, p, Doomed(s, p, same, tuple))
    ensures p in same ==> a == Quiet(s)
    ensures p !in same ==> CellAt(a.store, p) == Select(CellAt(s, p), tuple, false)
    ensures forall q | ValidPoint(q) && q != p :: CellAt(a.store, q) == CellAt(s, q)
    ensures OnlyEliminations(a.sent)
    ensures forall m | m in a.sent ::
      m.point == p && p !in same && m.number in tuple && m.number in CellAt(s, p)
  {
    if p in same {
      InteriorEmitsNothing(s, p, tuple);
    } else {
      assert Doomed(s, p, same, tuple) == Select(CellAt(s, p), tuple, true);
      SelectAgree(CellAt(s, p), Select(CellAt(s, p), tuple, true), tuple, false);
    }
  }

  /** The first cell of the loop leaves the rest of ps as it was. */
  lemma TupleRest(s: Store, ps: seq<Point>, same: seq<Point>, tuple: seq<int>, a: Out)
    requires OnBoard(ps) && Distinct(ps) && ps != []
    requires forall p | p in ps :: p in same <==> SubsetOf(CellAt(s, p), tuple)
    requires forall q | ValidPoint(q) && q != ps[0] :: CellAt(a.store, q) == CellAt(s, q)
    ensures forall q | q in ps[1..] :: q in same <==> SubsetOf(CellAt(a.store, q), tuple)
  {
    DistinctTail(ps);
    assert forall q | q in ps[1..] :: q in ps && q != ps[0];
  }

  /** Joining the first cell of the loop to the rest. */
  lemma TupleJoin(s: Store, ps: seq<Point>, same: seq<Point>, tuple: seq<int>, a: Out, b: Out)
    requires OnBoard(ps) && Distinct(ps) && ps != []
    requires ps[0] in same ==> a == Quiet(s)
    requires ps[0] !in same ==> CellAt(a.store, ps[0]) == Select(CellAt(s, ps[0]), tuple, false)
    requires forall q | ValidPoint(q) && q != ps[0] :: CellAt(a.store, q) == CellAt(s, q)
    requires OnlyEliminations(a.sent)
    requires forall m | m in a.sent ::
      m.point == ps[0] && ps[0] !in same && m.number in tuple && m.number in CellAt(s, ps[0])
    requires OnBoard(ps[1..]) && TupleDone(a.store, ps[1..], same, tuple, b)
    ensures TupleDone(s, ps, same, tuple, Then(a, b))
  {
    TupleStepCells(s, ps, same, tuple, a, b.store);
    TupleStepSent(s, ps, same, tuple, a, b.sent);
  }

  /** Joining the first cell of the loop to the rest: the cells. */
  lemma TupleStepCells(s: Store, ps: seq<Point>, same: seq<Point>, tuple: seq<int>, a: Out, t: Store)
    requires OnBoard(ps) && Distinct(ps) && ps != []
    requires ps[0] in same ==> a == Quiet(s)
    requires ps[0] !in same ==> CellAt(a.store, ps[0]) == Select(CellAt(s, ps[0]), tuple, false)
    requires forall q | ValidPoint(q) && q != ps[0] :: CellAt(a.store, q) == CellAt(s, q)
    requires OnBoard(ps[1..]) && TupleCells(a.store, ps[1..], same, tuple, t)
    ensures TupleCells(s, ps, same, tuple, t)
  {
    DistinctTail(ps);
    assert forall q | q in ps :: q == ps[0] || q in ps[1..];
    forall p | p in ps && p !in same
      ensures CellAt(t, p) == Select(CellAt(s, p), tuple, false)
    {
      if p == ps[0] {
        assert CellAt(t, p) == CellAt(a.store, p);
      } else {
        assert p in ps[1..] && CellAt(a.store, p) == CellAt(s, p);
      }
    }
  }

  /** Joining the first cell of the loop to the rest: the messages. */
  lemma TupleStepSent(s: Store, ps: seq<Point>, same: seq<Point>, tuple: seq<int>, a: Out, ms: seq<Msg>)
    requires OnBoard(ps) && Distinct(ps) && ps != []
    requires forall q | ValidPoint(q) && q != ps[0] :: CellAt(a.store, q) == CellAt(s, q)
    requires OnlyEliminations(a.sent)
    requires forall m | m in a.sent ::
      m.point == ps[0] && ps[0] !in same && m.number in tuple && m.number in CellAt(s, ps[0])
    requires OnBoard(ps[1..]) && TupleSent(a.store, ps[1..], same, tuple, ms)
    ensures TupleSent(s, ps, same, tuple, a.sent + ms)
  {
    DistinctTail(ps);
    assert forall q | q in ps[1..] :: q in ps && q != ps[0];
    assert forall m | m in a.sent + ms :: m in a.sent || m in ms;
  }

  /** The firing condition of `checkTuple` on my own candidates: I am not
      done, and exactly as many cells of the unit as I have candidates are
      confined to them. */
  ghost predicate NakedTuple(me: Point, s: Store, ps: seq<Point>)
    requires ValidPoint(me) && OnBoard(ps)
  {
    !Done(me, s) && |Confined(s, ps, CellAt(s, me))| == |CellAt(s, me)|
  }

  /** The naked-tuple rule over the given points. The tuple is my live cell, but my
      cell is confined to itself and so is never touched: reading it once
      up front is the same. */
  function CheckTuple(me: Point, s: Store, ps: seq<Point>): (r: Out)
    requires ValidPoint(me) && OnBoard(ps) && Distinct(ps) && me in ps
    ensures Done(me, s) ==> r == Quiet(s)
    ensures Folds(s, r) && OnlyEliminations(r.sent)
    ensures CellAt(r.store, me) == CellAt(s, me)
    ensures !NakedTuple(me, s, ps) ==> r == Quiet(s)
    ensures forall p | ValidPoint(p) && (p !in ps || SubsetOf(CellAt(s, p), CellAt(s, me))) ::
      CellAt(r.store, p) == CellAt(s, p)
    ensures NakedTuple(me, s, ps) ==>
      forall p | p in ps && !SubsetOf(CellAt(s, p), CellAt(s, me)) ::
        CellAt(r.store, p) == Select(CellAt(s, p), CellAt(s, me), false)
    ensures forall m | m in r.sent ::
      && m.point in ps && !SubsetOf(CellAt(s, m.point), CellAt(s, me))
      && m.number in CellAt(s, me) && m.number in CellAt(s, m.point)
  {
    if Done(me, s) then Quiet(s)
    else
      var tuple := CellAt(s, me);
      var same := SamePossible(s, ps, tuple);
      SamePossibleCount(s, ps, tuple);
      if |same| == |tuple| then
        var r := TupleFrom(s, ps, same, tuple);
        TupleDoneInUnit(me, s, ps, same, r);
        r
      else Quiet(s)
  }

  /** The loop's summary, read back as the rule's. */
  lemma TupleDoneInUnit(me: Point, s: Store, ps: seq<Point>, same: seq<Point>, r: Out)
    requires ValidPoint(me) && OnBoard(ps) && Distinct(ps) && me in ps && !Done(me, s)
    requires same == SamePossible(s, ps, CellAt(s, me)) && |same| == |CellAt(s, me)|
    requires TupleDone(s, ps, same, CellAt(s, me), r)
    ensures NakedTuple(me, s, ps)
    ensures CellAt(r.store, me) == CellAt(s, me)
    ensures forall p | ValidPoint(p) && (p !in ps || SubsetOf(CellAt(s, p), CellAt(s, me))) ::
      CellAt(r.store, p) == CellAt(s, p)
    ensures forall p | p in ps && !SubsetOf(CellAt(s, p), CellAt(s, me)) ::
      CellAt(r.store, p) == Select(CellAt(s, p), CellAt(s, me), false)
    ensures forall m | m in r.sent ::
      && m.point in ps && !SubsetOf(CellAt(s, m.point), CellAt(s, me))
      && m.number in CellAt(s, me) && m.number in CellAt(s, m.point)
  {
    var tuple := CellAt(s, me);
    SamePossibleCount(s, ps, tuple);
    assert SubsetOf(tuple, tuple);
    assert me in same;
    assert forall p | p in ps && !SubsetOf(CellAt(s, p), tuple) :: p !in same;
    assert forall p | ValidPoint(p) && p in ps && SubsetOf(CellAt(s, p), tuple) :: p in same;
  }

  /** `checkTupleInRow`: only cells of my row lose candidates, and only
      candidates of mine. */
  function CheckTupleInRow(me: Point, s: Store): (r: Out)
    requires ValidPoint(me)
    ensures Folds(s, r) && OnlyEliminations(r.sent)
    ensures !NakedTuple(me, s, RowPoints(me)) ==> r == Quiet(s)
    ensures forall p | ValidPoint(p) && p.y != me.y :: CellAt(r.store, p) == CellAt(s, p)
    ensures forall m | m in r.sent :: m.point.y == me.y && m.number in CellAt(s, me)
  {
    CheckTuple(me, s, RowPoints(me))
  }

  /** `checkTupleInCol`: only cells of my column lose candidates, and only
      candidates of mine. */
  function CheckTupleInCol(me: Point, s: Store): (r: Out)
    requires ValidPoint(me)
    ensures Folds(s, r) && OnlyEliminations(r.sent)
    ensures !NakedTuple(me, s, ColumnPoints(me)) ==> r == Quiet(s)
    ensures forall p | ValidPoint(p) && p.x != me.x :: CellAt(r.store, p) == CellAt(s, p)
    ensures forall m | m in r.sent :: m.point.x == me.x && m.number in CellAt(s, me)
  {
    CheckTuple(me, s, ColumnPoints(me))
  }

  /** `checkTupleInBlock`: only cells of my block lose candidates, and only
      candidates of mine. */
  function CheckTupleInBlock(me: Point, s: Store): (r: Out)
    requires ValidPoint(me)
    ensures Folds(s, r) && OnlyEliminations(r.sent)
    ensures !NakedTuple(me, s, BlockPoints(me)) ==> r == Quiet(s)
    ensures forall p | ValidPoint(p) && !InBlock(me, p) :: CellAt(r.store, p) == CellAt(s, p)
    ensures forall m | m in r.sent :: InBlock(me, m.point) && m.number in CellAt(s, me)
  {
    CheckTuple(me, s, BlockPoints(me))
  }

  /** The pigeonhole step: |tuple| distinct cells confined to the tuple
      take, in a solution, every digit of it, so no other cell of the unit
      can take one. */
  lemma TupleDigitsTaken(s: Store, ps: seq<Point>, same: seq<Point>, tuple: OrderedSet, sol: Solution)
    requires OnBoard(ps) && Distinct(same) && |same| == |tuple|
    requires forall q | q in same :: q in ps && SubsetOf(CellAt(s, q), tuple)
    requires Consistent(s, sol, ps) && Injective(sol, ps)
    ensures forall p | p in ps && p !in same :: sol(p) !in tuple
  {
    var used := seq(|same|, i requires 0 <= i < |same| => sol(same[i]));
    assert Distinct(used) by {
      forall i, j | 0 <= i < j < |used| ensures used[i] != used[j] {
        assert same[i] != same[j];
        assert same[i] in ps && same[j] in ps;
      }
    }
    assert SubsetOf(used, tuple) by {
      forall k | k in used ensures k in tuple {
        var i :| 0 <= i < |used| && used[i] == k;
        var q := same[i];
        assert q in same;
      }
    }
    Pigeonhole(used, tuple);
    forall p | p in ps && p !in same
      ensures sol(p) !in tuple
    {
      forall i | 0 <= i < |used| ensures used[i] != sol(p) {
        var q := same[i];
        assert q in same && q in ps && q != p;
      }
      var v := sol(p);
      assert v !in used;
      assert v in tuple ==> v in used;
    }
  }

  /** Naked tuples are sound: a solution that gives the cells of the unit
      different digits, each still a candidate, keeps every one of them a
      candidate after the eliminations. */
  lemma TupleSound(me: Point, s: Store, ps: seq<Point>, sol: Solution)
    requires ValidPoint(me) && OnBoard(ps) && Distinct(ps) && me in ps
    requires Consistent(s, sol, ps) && Injective(sol, ps)
    ensures Consistent(CheckTuple(me, s, ps).store, sol, ps)
  {
    var r := CheckTuple(me, s, ps);
    var tuple := CellAt(s, me);
    if NakedTuple(me, s, ps) {
      var same := SamePossible(s, ps, tuple);
      SamePossibleCount(s, ps, tuple);
      TupleDigitsTaken(s, ps, same, tuple, sol);
      forall p | p in ps
        ensures sol(p) in CellAt(r.store, p)
      {
        if !SubsetOf(CellAt(s, p), tuple) {
          assert p !in same;
        }
      }
    }
  }
}

=== FILE: units.dfy ===
/** The unit-membership tests of a cell actor (CellActor.kt): which messages
    concern the actor's own cell, block, row or column. Only on-board points
    occur, where Kotlin's truncating `/` agrees with Dafny's. */
module Units {
  import opened Grids
  import opened Messages

  /** `blockPoint`: the top-left corner of the 3x3 block holding me. */
  function BlockPoint(me: Point): (b: Point)
    requires ValidPoint(me)
    ensures ValidPoint(b)
    ensures b.x % 3 == 0 && b.y % 3 == 0
    ensures b.x <= me.x <= b.x + 2 && b.y <= me.y <= b.y + 2
  {
    Point((me.x / 3) * 3, (me.y / 3) * 3)
  }

  /** p lies in the 3x3 block whose corner is BlockPoint(me). */
  predicate InBlock(me: Point, p: Point)
    requires ValidPoint(me)
  {
    var b := BlockPoint(me);
    b.x <= p.x <= b.x + 2 && b.y <= p.y <= b.y + 2
  }

  /** `isMe`: comparing both coordinates is comparing the points. */
  function IsMe(me: Point, m: Msg): (r: bool)
    ensures r <==> m.point == me
  {
    m.point.x == me.x && m.point.y == me.y
  }

  /** `isBlock`: the message is about a cell of my block (me included), and
      that is the case exactly when both cells have the same block corner. */
  function IsBlock(me: Point, m: Msg): (r: bool)
    requires ValidPoint(me) && ValidPoint(m.point)
    ensures r <==> InBlock(me, m.point)
    ensures r <==> BlockPoint(m.point) == BlockPoint(me)
  {
    m.point.x / 3 == me.x / 3 && m.point.y / 3 == me.y / 3
  }

  /** `isRow`: another cell of my row. */
  function IsRow(me: Point, m: Msg): (r: bool)
    ensures r <==> m.point.y == me.y && m.point != me
  {
    m.point.x != me.x && m.point.y == me.y
  }

  /** `isCol`: another cell of my column. */
  function IsCol(me: Point, m: Msg): (r: bool)
    ensures r <==> m.point.x == me.x && m.point != me
  {
    m.point.x == me.x && m.point.y != me.y
  }

  /** `isInReach`: the message's cell shares a row, a column or a block with
      mine (my own cell included). */
  function IsInReach(me: Point, m: Msg): (r: bool)
    requires ValidPoint(me) && ValidPoint(m.point)
    ensures r <==> m.point.x == me.x || m.point.y == me.y || InBlock(me, m.point)
  {
    IsBlock(me, m) || IsCol(me, m) || IsRow(me, m)
  }

  /** The row and column tests never both hold, neither holds for my own
      cell, and a message about another cell outside my reach triggers none
      of the three unit tests. */
  lemma UnitTestsPartition(me: Point, m: Msg)
    requires ValidPoint(me) && ValidPoint(m.point)
    ensures !(IsRow(me, m) && IsCol(me, m))
    ensures IsMe(me, m) ==> !IsRow(me, m) && !IsCol(me, m) && IsBlock(me, m)
    ensures !IsInReach(me, m) ==> !IsBlock(me, m) && !IsRow(me, m) && !IsCol(me, m)
  {
  }
}

=== FILE: xwing.dfy ===
/** X-Wing along rows (CellActor.kt `checkXWingRow`): when a candidate n of
    mine may sit in only two cells of my row, in my column and one other,
    and some other row may hold n in exactly those two columns and nowhere
    else, then n lies in those two columns on those two rows, so every other
    cell of the two columns loses it. */
module XWing {
  import opened Grids
  import opened Options
  import opened Ordered
  import opened Messages
  import opened Belief
  import opened Scan
  import opened Emission
  import opened Solutions

  /** How many cells of row y from column x on may hold n. */
  function RowCountFrom(s: Store, y: int, n: int, x: int): nat
    requires 0 <= y < Size && 0 <= x <= Size
    decreases Size - x
  {
    if x == Size then 0
    else (if n in CellAt(s, Point(x, y)) then 1 else 0) + RowCountFrom(s, y, n, x + 1)
  }

  /** How many cells of row y may hold n. */
  function RowCount(s: Store, y: int, n: int): nat
    requires 0 <= y < Size
  {
    RowCountFrom(s, y, n, 0)
  }

  /** The row count is `count` over the points of the row, the same
      CountHolding the other rules use. */
  lemma {:induction false} RowCountFromIsCount(s: Store, y: int, n: int, x: int)
    requires 0 <= y < Size && 0 <= x <= Size
    ensures OnBoard(PointsIn(Range(x, Size - 1), Range(y, y)))
    ensures RowCountFrom(s, y, n, x) == CountHolding(s, PointsIn(Range(x, Size - 1), Range(y, y)), n)
    decreases Size - x
  {
    PointsInOnBoard(Range(x, Size - 1), Range(y, y));
    if x < Size {
      var xs := Range(x, Size - 1);
      assert xs[0] == x;
      assert xs[1..] == Range(x + 1, Size - 1);
      assert Range(y, y) == [y];
      var ps := PointsIn(xs, Range(y, y));
      assert ps[0] == Point(x, y);
      assert ps[1..] == PointsIn(Range(x + 1, Size - 1), Range(y, y));
      RowCountFromIsCount(s, y, n, x + 1);
    }
  }

  /** The row count is CountHolding over row y's points. */
  lemma RowCountIsCount(s: Store, y: int, n: int)
    requires 0 <= y < Size
    ensures RowCount(s, y, n) == CountHolding(s, RowPoints(Point(0, y)), n)
  {
    RowCountFromIsCount(s, y, n, 0);
  }

  /** A cell counted among two holders from column x on leaves another. */
  lemma {:induction false} CountTwoLeavesOther(s: Store, y: int, n: int, x: int, c: int)
    requires 0 <= y < Size && 0 <= x <= c < Size && n in CellAt(s, Point(c, y))
    requires RowCountFrom(s, y, n, x) >= 2
    ensures exists d | x <= d < Size && d != c :: n in CellAt(s, Point(d, y))
    decreases Size - x
  {
    if n in CellAt(s, Point(x, y)) && x != c {
    } else if x == c {
      CountPositive(s, y, n, x + 1);
    } else {
      CountTwoLeavesOther(s, y, n, x + 1, c);
    }
  }

  /** A positive count has a holder. */
  lemma {:induction false} CountPositive(s: Store, y: int, n: int, x: int)
    requires 0 <= y < Size && 0 <= x <= Size && RowCountFrom(s, y, n, x) > 0
    ensures exists d | x <= d < Size :: n in CellAt(s, Point(d, y))
    decreases Size - x
  {
    if n !in CellAt(s, Point(x, y)) {
      CountPositive(s, y, n, x + 1);
    }
  }

  /** The `find` of the other column, searching from column x on: the
      first column of my row other than mine whose cell may hold n. */
  function FindOther(s: Store, me: Point, n: int, x: int): (r: Option<int>)
    requires ValidPoint(me) && 0 <= x <= Size
    ensures r.Some? ==> x <= r.value < Size && r.value != me.x && n in CellAt(s, Point(r.value, me.y))
    ensures r.Some? ==> forall c | x <= c < r.value && c != me.x :: n !in CellAt(s, Point(c, me.y))
    ensures r.None? <==> forall c | x <= c < Size && c != me.x :: n !in CellAt(s, Point(c, me.y))
    decreases Size - x
  {
    if x == Size then None
    else if x != me.x && n in CellAt(s, Point(x, me.y)) then Some(x)
    else FindOther(s, me, n, x + 1)
  }

  /** The search for the partner column always finds one: with n one of my candidates and
      counted twice in my row, another column of my row holds it. */
  lemma FindOtherSucceeds(s: Store, me: Point, n: int)
    requires ValidPoint(me) && n in CellAt(s, me) && RowCount(s, me.y, n) == 2
    ensures FindOther(s, me, n, 0).Some?
  {
    assert me == Point(me.x, me.y);
    CountTwoLeavesOther(s, me.y, n, 0, me.x);
  }

  /** Row r closes an X-Wing on n with my cell and column ox: it is another
      row, both its cells in my column and column ox may hold n, and no
      other cell of it may. */
  predicate Partner(s: Store, me: Point, n: int, ox: int, r: int)
    requires ValidPoint(me) && 0 <= ox < Size
  {
    && 0 <= r < Size && r != me.y
    && n in CellAt(s, Point(me.x, r)) && n in CellAt(s, Point(ox, r))
    && RowCount(s, r, n) == 2
  }

  /** The first partner row at or after row r, if any. */
  function FirstPartner(s: Store, me: Point, n: int, ox: int, r: int): Option<int>
    requires ValidPoint(me) && 0 <= ox < Size && 0 <= r <= Size
    decreases Size - r
  {
    if r == Size then None
    else if Partner(s, me, n, ox, r) then Some(r)
    else FirstPartner(s, me, n, ox, r + 1)
  }

  /** FirstPartner finds the least partner row from r on, and finds none
      exactly when there is none. */
  lemma {:induction false} FirstPartnerLeast(s: Store, me: Point, n: int, ox: int, r: int)
    requires ValidPoint(me) && 0 <= ox < Size && 0 <= r <= Size
    ensures var f := FirstPartner(s, me, n, ox, r);
      && (f.Some? ==> r <= f.value && Partner(s, me, n, ox, f.value))
      && (f.Some? ==> forall q | r <= q < f.value :: !Partner(s, me, n, ox, q))
      && (f.None? <==> forall q | r <= q < Size :: !Partner(s, me, n, ox, q))
    decreases Size - r
  {
    if r < Size && !Partner(s, me, n, ox, r) {
      FirstPartnerLeast(s, me, n, ox, r + 1);
    }
  }

  /** The cells an X-Wing on my row and row `row`, in my column and column
      ox, rules n out of: the two columns, on every other row. */
  predicate Target(me: Point, ox: int, row: int, p: Point) {
    (p.x == me.x || p.x == ox) && p.y != row && p.y != me.y
  }

  /** The cells the elimination loop visits from row `from` on, in order:
      on every row but my row and the partner row, my column's cell and
      then column ox's cell. */
  function XWingTargets(me: Point, ox: int, row: int, from: int): (ps: seq<Point>)
    requires ValidPoint(me) && 0 <= ox < Size && 0 <= from <= Size
    ensures forall p | p in ps :: ValidPoint(p)
    ensures forall p :: p in ps <==> ValidPoint(p) && Target(me, ox, row, p) && from <= p.y
    decreases Size - from
  {
    if from == Size then []
    else
      var here := if from == row || from == me.y then [] else [Point(me.x, from), Point(ox, from)];
      here + XWingTargets(me, ox, row, from + 1)
  }

  /** The `elimRow` loop: n is ruled out of every target cell, in order,
      where still held. */
  function XWingElim(me: Point, s: Store, n: int, ox: int, row: int): (r: Out)
    requires ValidPoint(me) && 0 <= ox < Size
    ensures Folds(s, r) && OnlyEliminations(r.sent)
  {
    ElimAll(s, XWingTargets(me, ox, row, 0), n)
  }

  /** What the `elimRow` loop does: n is gone from every target cell,
      nothing else changes, and each message names a target that still held
      n. */
  lemma XWingElimEffect(me: Point, s: Store, n: int, ox: int, row: int)
    requires ValidPoint(me) && 0 <= ox < Size
    ensures forall p | ValidPoint(p) :: (CellAt(XWingElim(me, s, n, ox, row).store, p) ==
      if Target(me, ox, row, p) then Remove(CellAt(s, p), n) else CellAt(s, p))
    ensures forall m | m in XWingElim(me, s, n, ox, row).sent ::
      m.number == n && Target(me, ox, row, m.point) && n in CellAt(s, m.point)
  {
    var ps := XWingTargets(me, ox, row, 0);
    ElimAllCells(s, ps, n);
    ElimAllSent(s, ps, n);
  }

  /** Once an X-Wing with row `row` has fired, leaving store t, no other row
      is a partner: its cell in my column has lost n. */
  lemma NoPartnerAfter(me: Point, s: Store, n: int, ox: int, row: int, t: Store)
    requires ValidPoint(me) && 0 <= ox < Size && ox != me.x
    requires forall p | ValidPoint(p) :: (CellAt(t, p) ==
      if Target(me, ox, row, p) then Remove(CellAt(s, p), n) else CellAt(s, p))
    ensures forall q | q != row :: !Partner(t, me, n, ox, q)
  {
    forall q | q != row
      ensures !Partner(t, me, n, ox, q)
    {
      if 0 <= q < Size && q != me.y {
        var p := Point(me.x, q);
        assert ValidPoint(p) && Target(me, ox, row, p);
        assert CellAt(t, p) == Remove(CellAt(s, p), n);
      }
    }
  }

  /** After the X-Wing with row `row` has fired, the scan of the later rows
      finds no partner. */
  lemma FiredLast(me: Point, s: Store, n: int, ox: int, row: int)
    requires ValidPoint(me) && 0 <= ox < Size && ox != me.x && 0 <= row < Size
    ensures FirstPartner(XWingElim(me, s, n, ox, row).store, me, n, ox, row + 1).None?
  {
    var t := XWingElim(me, s, n, ox, row).store;
    XWingElimEffect(me, s, n, ox, row);
    NoPartnerAfter(me, s, n, ox, row, t);
    FirstPartnerLeast(t, me, n, ox, row + 1);
  }

  /** The scan for a partner row from row `from` on; every partner found
      fires the eliminations. */
  function XWingRows(me: Point, s: Store, n: int, ox: int, from: int): (r: Out)
    requires ValidPoint(me) && 0 <= ox < Size && ox != me.x && 0 <= from <= Size
    ensures Folds(s, r) && OnlyEliminations(r.sent)
    decreases Size - from
  {
    if from == Size then Quiet(s)
    else if from == me.y then XWingRows(me, s, n, ox, from + 1)
    else if Partner(s, me, n, ox, from) then
      var a := XWingElim(me, s, n, ox, from);
      var b := XWingRows(me, a.store, n, ox, from + 1);
      ThenFolds(s, a, b);
      Then(a, b)
    else
      var b := XWingRows(me, s, n, ox, from + 1);
      QuietThen(s, b);
      Then(Quiet(s), b)
  }

  /** A row that is not a partner is passed over. */
  lemma RowsSkip(me: Point, s: Store, n: int, ox: int, from: int)
    requires ValidPoint(me) && 0 <= ox < Size && ox != me.x && 0 <= from < Size
    requires !Partner(s, me, n, ox, from)
    ensures XWingRows(me, s, n, ox, from) == XWingRows(me, s, n, ox, from + 1)
  {
    if from != me.y {
      QuietThen(s, XWingRows(me, s, n, ox, from + 1));
    }
  }

  /** The search for a partner passes over a row that is not one. */
  lemma PartnerSkip(me: Point, s: Store, n: int, ox: int, from: int)
    requires ValidPoint(me) && 0 <= ox < Size && 0 <= from < Size
    requires !Partner(s, me, n, ox, from)
    ensures FirstPartner(s, me, n, ox, from) == FirstPartner(s, me, n, ox, from + 1)
  {
  }

  /** With no partner row left, the scan does nothing. */
  lemma {:induction false} RowsQuiet(me: Point, s: Store, n: int, ox: int, from: int)
    requires ValidPoint(me) && 0 <= ox < Size && ox != me.x && 0 <= from <= Size
    requires FirstPartner(s, me, n, ox, from).None?
    ensures XWingRows(me, s, n, ox, from) == Quiet(s)
    decreases Size - from
  {
    if from < Size {
      RowsSkip(me, s, n, ox, from);
      PartnerSkip(me, s, n, ox, from);
      RowsQuiet(me, s, n, ox, from + 1);
    }
  }

  /** A partner row fires; when the rest of the scan is quiet afterwards,
      the scan is that X-Wing's eliminations. */
  lemma RowsFire(me: Point, s: Store, n: int, ox: int, from: int)
    requires ValidPoint(me) && 0 <= ox < Size && ox != me.x && 0 <= from < Size
    requires Partner(s, me, n, ox, from)
    requires var a := XWingElim(me, s, n, ox, from);
      XWingRows(me, a.store, n, ox, from + 1) == Quiet(a.store)
    ensures XWingRows(me, s, n, ox, from) == XWingElim(me, s, n, ox, from)
  {
    ThenQuiet(XWingElim(me, s, n, ox, from));
  }

  /** The scan fires for the first partner row only: that X-Wing's
      eliminations take n out of every later candidate partner's cell in my
      column, so at most one X-Wing fires per digit. */
  lemma {:induction false} XWingRowsFirst(me: Point, s: Store, n: int, ox: int, from: int)
    requires ValidPoint(me) && 0 <= ox < Size && ox != me.x && 0 <= from <= Size
    ensures match FirstPartner(s, me, n, ox, from)
      case None => XWingRows(me, s, n, ox, from) == Quiet(s)
      case Some(row) => XWingRows(me, s, n, ox, from) == XWingElim(me, s, n, ox, row)
    decreases Size - from
  {
    if from == Size {
    } else if !Partner(s, me, n, ox, from) {
      RowsSkip(me, s, n, ox, from);
      PartnerSkip(me, s, n, ox, from);
      XWingRowsFirst(me, s, n, ox, from + 1);
    } else {
      var a := XWingElim(me, s, n, ox, from);
      FiredLast(me, s, n, ox, from);
      RowsQuiet(me, a.store, n, ox, from + 1);
      RowsFire(me, s, n, ox, from);
    }
  }

  /** One digit of the loop over my candidates: when my row holds n
      twice, find the other column and scan for a partner row. */
  function XWingNumber(me: Point, s: Store, n: int): (r: Out)
    requires ValidPoint(me) && n in CellAt(s, me)
    ensures Folds(s, r) && OnlyEliminations(r.sent)
    ensures RowCount(s, me.y, n) != 2 ==> r == Quiet(s)
  {
    if RowCount(s, me.y, n) == 2 then
      FindOtherSucceeds(s, me, n);
      XWingRows(me, s, n, FindOther(s, me, n, 0).value, 0)
    else Quiet(s)
  }

  /** Distinct holders of n from column x on are each counted. */
  lemma {:induction false} CountAtLeast(s: Store, y: int, n: int, x: int, cs: OrderedSet)
    requires 0 <= y < Size && 0 <= x <= Size
    requires forall c | c in cs :: x <= c < Size && n in CellAt(s, Point(c, y))
    ensures RowCountFrom(s, y, n, x) >= |cs|
    decreases Size - x
  {
    if x == Size {
      var none: OrderedSet := [];
      assert SubsetOf(cs, none);
      SubsetLen(cs, none);
    } else {
      var rest := Remove(cs, x);
      CountAtLeast(s, y, n, x + 1, rest);
    }
  }

  /** Three holders of n in a row counted twice cannot all differ. */
  lemma ThirdHolder(s: Store, y: int, n: int, a: int, b: int, d: int)
    requires 0 <= y < Size && 0 <= a < Size && 0 <= b < Size && 0 <= d < Size
    requires n in CellAt(s, Point(a, y)) && n in CellAt(s, Point(b, y)) && n in CellAt(s, Point(d, y))
    ensures a == b || b == d || a == d || RowCount(s, y, n) >= 3
  {
    if a != b && b != d && a != d {
      CountAtLeast(s, y, n, 0, [a, b, d]);
    }
  }

  /** With my row holding n exactly twice, in my cell and in column c, the
      `find` returns c. */
  lemma OnlyOtherColumn(s: Store, me: Point, n: int, c: int)
    requires ValidPoint(me) && n in CellAt(s, me) && RowCount(s, me.y, n) == 2
    requires 0 <= c < Size && c != me.x && n in CellAt(s, Point(c, me.y))
    ensures FindOther(s, me, n, 0) == Some(c)
  {
    FindOtherSucceeds(s, me, n);
    var f := FindOther(s, me, n, 0).value;
    assert me == Point(me.x, me.y);
    ThirdHolder(s, me.y, n, me.x, f, c);
  }

  /** An X-Wing on n: my cell and column ox are the only cells of my row
      that may hold n, and row `row` is a partner for them. */
  ghost predicate IsXWing(s: Store, me: Point, n: int, ox: int, row: int)
    requires ValidPoint(me)
  {
    && 0 <= ox < Size && ox != me.x
    && n in CellAt(s, me) && n in CellAt(s, Point(ox, me.y)) && RowCount(s, me.y, n) == 2
    && Partner(s, me, n, ox, row)
  }

  /** The X-Wing the scan acts on: `row` is the first partner row. */
  ghost predicate FirstXWing(s: Store, me: Point, n: int, ox: int, row: int)
    requires ValidPoint(me)
  {
    IsXWing(s, me, n, ox, row) && forall q | 0 <= q < row :: !Partner(s, me, n, ox, q)
  }

  /** Stores that agree on where n may go agree on every row's count of n. */
  lemma RowCountAgree(s: Store, t: Store, y: int, n: int)
    requires 0 <= y < Size && SameHolders(s, t, n)
    ensures RowCount(s, y, n) == RowCount(t, y, n)
  {
    RowCountIsCount(s, y, n);
    RowCountIsCount(t, y, n);
    CountAgree(s, t, RowPoints(Point(0, y)), n);
  }

  /** Stores that agree on where n may go have the same X-Wings on n. */
  lemma XWingAgree(s: Store, t: Store, me: Point, n: int)
    requires ValidPoint(me) && SameHolders(s, t, n)
    ensures forall ox, row :: FirstXWing(s, me, n, ox, row) <==> FirstXWing(t, me, n, ox, row)
  {
    forall y | 0 <= y < Size
      ensures RowCount(s, y, n) == RowCount(t, y, n)
    {
      RowCountAgree(s, t, y, n);
    }
    forall ox, r | 0 <= ox < Size
      ensures Partner(s, me, n, ox, r) <==> Partner(t, me, n, ox, r)
    {
      if 0 <= r < Size {
        assert ValidPoint(Point(me.x, r)) && ValidPoint(Point(ox, r));
      }
    }
    forall ox, row
      ensures FirstXWing(s, me, n, ox, row) <==> FirstXWing(t, me, n, ox, row)
    {
      if 0 <= ox < Size {
        assert me == Point(me.x, me.y);
        assert ValidPoint(Point(ox, me.y));
      }
    }
  }

  /** Without an X-Wing on n the check does nothing. */
  lemma XWingNumberQuiet(me: Point, s: Store, n: int)
    requires ValidPoint(me) && n in CellAt(s, me)
    requires forall ox, row :: !IsXWing(s, me, n, ox, row)
    ensures XWingNumber(me, s, n) == Quiet(s)
  {
    if RowCount(s, me.y, n) == 2 {
      FindOtherSucceeds(s, me, n);
      var ox := FindOther(s, me, n, 0).value;
      forall q | 0 <= q <= Size
        ensures !Partner(s, me, n, ox, q)
      {
        assert !IsXWing(s, me, n, ox, q);
      }
      FirstPartnerLeast(s, me, n, ox, 0);
      XWingRowsFirst(me, s, n, ox, 0);
    }
  }

  /** With an X-Wing on n whose partner row is the first one, the check
      rules n out of that X-Wing's two columns on every other row, only
      where it was still held, and changes nothing else. */
  lemma XWingNumberFires(me: Point, s: Store, n: int, ox: int, row: int)
    requires ValidPoint(me) && IsXWing(s, me, n, ox, row)
    requires forall q | 0 <= q < row :: !Partner(s, me, n, ox, q)
    ensures forall p | ValidPoint(p) :: (CellAt(XWingNumber(me, s, n).store, p) ==
      if Target(me, ox, row, p) then Remove(CellAt(s, p), n) else CellAt(s, p))
    ensures forall m | m in XWingNumber(me, s, n).sent ::
      m.number == n && Target(me, ox, row, m.point) && n in CellAt(s, m.point)
  {
    OnlyOtherColumn(s, me, n, ox);
    FirstPartnerLeast(s, me, n, ox, 0);
    XWingRowsFirst(me, s, n, ox, 0);
    assert FirstPartner(s, me, n, ox, 0) == Some(row);
    XWingElimEffect(me, s, n, ox, row);
  }

  /** The X-Wing rule is sound: in a solution that agrees with the store,
      has n somewhere in each of the two rows and repeats no digit in a
      column, n sits in the two columns on those two rows, so no target
      cell holds n. */
  lemma XWingSound(s: Store, me: Point, n: int, ox: int, row: int, sol: Solution)
    requires ValidPoint(me) && IsXWing(s, me, n, ox, row)
    requires ConsistentAll(s, sol) && ColumnsInjective(sol)
    requires RowHas(sol, me.y, n) && RowHas(sol, row, n)
    ensures forall p | ValidPoint(p) && Target(me, ox, row, p) :: sol(p) != n
  {
    assert me == Point(me.x, me.y);
    var x1 :| 0 <= x1 < Size && sol(Point(x1, me.y)) == n;
    var x2 :| 0 <= x2 < Size && sol(Point(x2, row)) == n;
    var a := Point(x1, me.y);
    var b := Point(x2, row);
    assert ValidPoint(a) && ValidPoint(b);
    ThirdHolder(s, me.y, n, me.x, ox, x1);
    ThirdHolder(s, row, n, me.x, ox, x2);
    assert x1 != x2;
    forall p | ValidPoint(p) && Target(me, ox, row, p)
      ensures sol(p) != n
    {
      if p.x == x1 {
        assert p != a;
      } else {
        assert p.x == x2 && p != b;
      }
    }
  }

  /** The eliminations of an X-Wing keep such a solution in agreement with
      the store. */
  lemma XWingElimSound(s: Store, me: Point, n: int, ox: int, row: int, sol: Solution)
    requires ValidPoint(me) && IsXWing(s, me, n, ox, row)
    requires ConsistentAll(s, sol) && ColumnsInjective(sol)
    requires RowHas(sol, me.y, n) && RowHas(sol, row, n)
    ensures ConsistentAll(XWingElim(me, s, n, ox, row).store, sol)
  {
    XWingSound(s, me, n, ox, row, sol);
    XWingElimEffect(me, s, n, ox, row);
  }

  /** One digit's check never touches my row, and each message rules n out
      of a cell off my row that still held it. */
  lemma XWingNumberEffect(me: Point, s: Store, n: int)
    requires ValidPoint(me) && n in CellAt(s, me)
    ensures forall p | ValidPoint(p) && p.y == me.y :: CellAt(XWingNumber(me, s, n).store, p) == CellAt(s, p)
    ensures forall m | m in XWingNumber(me, s, n).sent ::
      m.number == n && m.point.y != me.y && n in CellAt(s, m.point)
  {
    if RowCount(s, me.y, n) == 2 {
      FindOtherSucceeds(s, me, n);
      var ox := FindOther(s, me, n, 0).value;
      XWingRowsFirst(me, s, n, ox, 0);
      match FirstPartner(s, me, n, ox, 0)
      case None =>
      case Some(row) => XWingElimEffect(me, s, n, ox, row);
    }
  }

  /** The column `find` returns and the first partner row the scan meets
      make up the X-Wing the scan acts on. */
  lemma ScanFindsFirst(s: Store, me: Point, n: int, ox: int, row: int)
    requires ValidPoint(me) && n in CellAt(s, me) && RowCount(s, me.y, n) == 2
    requires FindOther(s, me, n, 0) == Some(ox) && FirstPartner(s, me, n, ox, 0) == Some(row)
    ensures FirstXWing(s, me, n, ox, row)
  {
    FirstPartnerLeast(s, me, n, ox, 0);
  }

  /** Every message of one digit's check rules n out of a target cell of
      the X-Wing the scan acts on. */
  lemma XWingNumberSent(me: Point, s: Store, n: int)
    requires ValidPoint(me) && n in CellAt(s, me)
    ensures forall m | m in XWingNumber(me, s, n).sent ::
      m.number == n && exists ox, row :: FirstXWing(s, me, n, ox, row) && Target(me, ox, row, m.point)
  {
    if RowCount(s, me.y, n) == 2 {
      FindOtherSucceeds(s, me, n);
      var ox := FindOther(s, me, n, 0).value;
      XWingRowsFirst(me, s, n, ox, 0);
      FirstPartnerLeast(s, me, n, ox, 0);
      match FirstPartner(s, me, n, ox, 0)
      case None =>
      case Some(row) =>
        XWingElimEffect(me, s, n, ox, row);
        ScanFindsFirst(s, me, n, ox, row);
        forall m | m in XWingNumber(me, s, n).sent
          ensures exists ox, row :: FirstXWing(s, me, n, ox, row) && Target(me, ox, row, m.point)
        {
          assert Target(me, ox, row, m.point);
        }
    }
  }

  /** After one digit's check, no target cell of the X-Wing the scan acts
      on may hold n. */
  lemma XWingNumberComplete(me: Point, s: Store, n: int)
    requires ValidPoint(me) && n in CellAt(s, me)
    ensures forall ox, row, p | FirstXWing(s, me, n, ox, row) && ValidPoint(p) && Target(me, ox, row, p) ::
      n !in CellAt(XWingNumber(me, s, n).store, p)
  {
    forall ox, row | FirstXWing(s, me, n, ox, row)
      ensures forall p | ValidPoint(p) && Target(me, ox, row, p) :: n !in CellAt(XWingNumber(me, s, n).store, p)
    {
      XWingNumberFires(me, s, n, ox, row);
    }
  }

  /** One digit's check keeps every solution of the kind XWingSound
      describes in agreement with the store. */
  lemma XWingNumberSound(me: Point, s: Store, n: int, sol: Solution)
    requires ValidPoint(me) && n in CellAt(s, me)
    requires ConsistentAll(s, sol) && ColumnsInjective(sol)
    requires forall y | 0 <= y < Size :: RowHas(sol, y, n)
    ensures ConsistentAll(XWingNumber(me, s, n).store, sol)
  {
    if RowCount(s, me.y, n) == 2 {
      FindOtherSucceeds(s, me, n);
      var ox := FindOther(s, me, n, 0).value;
      XWingRowsFirst(me, s, n, ox, 0);
      FirstPartnerLeast(s, me, n, ox, 0);
      match FirstPartner(s, me, n, ox, 0)
      case None =>
      case Some(row) =>
        assert IsXWing(s, me, n, ox, row);
        XWingElimSound(s, me, n, ox, row, sol);
    }
  }

  /** The loop over my candidates: the check for each of the listed
      candidates of mine in turn. My row never changes, so the live set the
      source iterates over is the snapshot ns. */
  function XWingEach(me: Point, s: Store, ns: seq<int>): (r: Out)
    requires ValidPoint(me) && forall k | k in ns :: k in CellAt(s, me)
    ensures Folds(s, r) && OnlyEliminations(r.sent)
    decreases |ns|
  {
    if ns == [] then Quiet(s)
    else
      var a := XWingNumber(me, s, ns[0]);
      XWingNumberEffect(me, s, ns[0]);
      assert forall k | k in ns[1..] :: k in ns;
      var b := XWingEach(me, a.store, ns[1..]);
      ThenFolds(s, a, b);
      ThenSent(a, b);
      Then(a, b)
  }

  /** The loop over my candidates leaves my row alone. */
  lemma {:induction false} XWingEachKeepsRow(me: Point, s: Store, ns: seq<int>)
    requires ValidPoint(me) && forall k | k in ns :: k in CellAt(s, me)
    ensures forall p | ValidPoint(p) && p.y == me.y :: CellAt(XWingEach(me, s, ns).store, p) == CellAt(s, p)
    decreases |ns|
  {
    if ns != [] {
      var a := XWingNumber(me, s, ns[0]);
      XWingNumberEffect(me, s, ns[0]);
      assert forall k | k in ns[1..] :: k in ns;
      XWingEachKeepsRow(me, a.store, ns[1..]);
    }
  }

  /** Every message of the loop rules one of the listed digits out of a
      cell off my row that held it when the loop began. */
  lemma {:induction false} XWingEachSent(me: Point, s: Store, ns: seq<int>)
    requires ValidPoint(me) && forall k | k in ns :: k in CellAt(s, me)
    ensures forall m | m in XWingEach(me, s, ns).sent ::
      m.number in ns && m.point.y != me.y && m.number in CellAt(s, m.point)
    decreases |ns|
  {
    if ns != [] {
      var a := XWingNumber(me, s, ns[0]);
      XWingNumberEffect(me, s, ns[0]);
      assert forall k | k in ns[1..] :: k in ns;
      var b := XWingEach(me, a.store, ns[1..]);
      XWingEachSent(me, a.store, ns[1..]);
      EliminationsShrink(s, a);
      ThenSent(a, b);
      forall m | m in b.sent
        ensures m.number in CellAt(s, m.point)
      {
        assert SubsetOf(CellAt(a.store, m.point), CellAt(s, m.point));
      }
    }
  }

  /** Every message of the loop rules a listed digit out of a target cell
      of an X-Wing on that digit in the store the loop began with. The
      digits are a set, so each is checked once. */
  lemma {:induction false} XWingEachTargets(me: Point, s: Store, ns: seq<int>)
    requires ValidPoint(me) && Distinct(ns) && forall k | k in ns :: k in CellAt(s, me)
    ensures forall m | m in XWingEach(me, s, ns).sent ::
      m.number in ns && exists ox, row :: FirstXWing(s, me, m.number, ox, row) && Target(me, ox, row, m.point)
    decreases |ns|
  {
    if ns != [] {
      var a := XWingNumber(me, s, ns[0]);
      XWingNumberEffect(me, s, ns[0]);
      XWingNumberSent(me, s, ns[0]);
      DistinctTail(ns);
      assert forall k | k in ns[1..] :: k in ns;
      var b := XWingEach(me, a.store, ns[1..]);
      XWingEachTargets(me, a.store, ns[1..]);
      ThenSent(a, b);
      forall m | m in b.sent
        ensures exists ox, row :: FirstXWing(s, me, m.number, ox, row) && Target(me, ox, row, m.point)
      {
        EliminationsKeepOthers(s, a, ns[0], m.number);
        XWingAgree(s, a.store, me, m.number);
      }
    }
  }

  /** After the loop, for each listed digit, no target cell is left holding
      it of the X-Wing the scan acts on (the one with the first partner
      row), read in the store the loop began with. */
  lemma {:induction false} XWingEachComplete(me: Point, s: Store, ns: seq<int>)
    requires ValidPoint(me) && Distinct(ns) && forall k | k in ns :: k in CellAt(s, me)
    ensures forall n, ox, row, p | n in ns && FirstXWing(s, me, n, ox, row) && ValidPoint(p) && Target(me, ox, row, p) ::
      n !in CellAt(XWingEach(me, s, ns).store, p)
    decreases |ns|
  {
    if ns != [] {
      var a := XWingNumber(me, s, ns[0]);
      XWingNumberEffect(me, s, ns[0]);
      XWingNumberComplete(me, s, ns[0]);
      DistinctTail(ns);
      assert forall k | k in ns[1..] :: k in ns;
      var b := XWingEach(me, a.store, ns[1..]);
      XWingEachComplete(me, a.store, ns[1..]);
      EliminationsShrink(a.store, b);
      forall n, ox, row, p | n in ns && FirstXWing(s, me, n, ox, row) && ValidPoint(p) && Target(me, ox, row, p)
        ensures n !in CellAt(b.store, p)
      {
        if n == ns[0] {
          assert SubsetOf(CellAt(b.store, p), CellAt(a.store, p));
        } else {
          assert n in ns[1..];
          EliminationsKeepOthers(s, a, ns[0], n);
          XWingAgree(s, a.store, me, n);
        }
      }
    }
  }

  /** The loop keeps every solution of the kind XWingSound describes in
      agreement with the store. */
  lemma {:induction false} XWingEachSound(me: Point, s: Store, ns: seq<int>, sol: Solution)
    requires ValidPoint(me) && forall k | k in ns :: k in CellAt(s, me)
    requires ConsistentAll(s, sol) && ColumnsInjective(sol)
    requires forall n, y | n in ns && 0 <= y < Size :: RowHas(sol, y, n)
    ensures ConsistentAll(XWingEach(me, s, ns).store, sol)
    decreases |ns|
  {
    if ns != [] {
      var a := XWingNumber(me, s, ns[0]);
      XWingNumberEffect(me, s, ns[0]);
      XWingNumberSound(me, s, ns[0], sol);
      assert forall k | k in ns[1..] :: k in ns;
      XWingEachSound(me, a.store, ns[1..], sol);
    }
  }

  /** `checkXWingRow`: nothing once my cell is decided, otherwise the X-Wing
      check for each of my candidates. */
  function CheckXWingRow(me: Point, s: Store): (r: Out)
    requires ValidPoint(me)
    ensures Done(me, s) ==> r == Quiet(s)
    ensures Folds(s, r) && OnlyEliminations(r.sent)
  {
    if Done(me, s) then Quiet(s) else XWingEach(me, s, CellAt(s, me))
  }

  /** checkXWingRow never changes my row, my own cell included, and every
      message rules one of my candidates out of a cell off my row that
      still held it: a target cell of an X-Wing on that digit. */
  lemma CheckXWingRowEffect(me: Point, s: Store)
    requires ValidPoint(me)
    ensures forall p | ValidPoint(p) && p.y == me.y :: CellAt(CheckXWingRow(me, s).store, p) == CellAt(s, p)
    ensures forall m | m in CheckXWingRow(me, s).sent ::
      m.number in CellAt(s, me) && m.point.y != me.y && m.number in CellAt(s, m.point)
    ensures forall m | m in CheckXWingRow(me, s).sent ::
      exists ox, row :: FirstXWing(s, me, m.number, ox, row) && Target(me, ox, row, m.point)
  {
    if !Done(me, s) {
      XWingEachKeepsRow(me, s, CellAt(s, me));
      XWingEachSent(me, s, CellAt(s, me));
      XWingEachTargets(me, s, CellAt(s, me));
    }
  }

  /** While my cell is undecided, checkXWingRow acts, for each of my
      candidates, on the X-Wing the scan finds (the one with the first
      partner row): afterwards none of its target cells may hold its digit. */
  lemma CheckXWingRowComplete(me: Point, s: Store)
    requires ValidPoint(me) && !Done(me, s)
    ensures forall n, ox, row, p | FirstXWing(s, me, n, ox, row) && ValidPoint(p) && Target(me, ox, row, p) ::
      n !in CellAt(CheckXWingRow(me, s).store, p)
  {
    XWingEachComplete(me, s, CellAt(s, me));
  }

  /** checkXWingRow never rules out the digit of a solution that agrees
      with the store, repeats no digit in a column and has each of my
      candidates in every row. */
  lemma CheckXWingRowSound(me: Point, s: Store, sol: Solution)
    requires ValidPoint(me) && ConsistentAll(s, sol) && ColumnsInjective(sol)
    requires forall n, y | n in CellAt(s, me) && 0 <= y < Size :: RowHas(sol, y, n)
    ensures ConsistentAll(CheckXWingRow(me, s).store, sol)
  {
    if !Done(me, s) {
      XWingEachSound(me, s, CellAt(s, me), sol);
    }
  }
}
